=== FILE: README.md ===
# tomoru-google-helpers in Dafny

A model of the sequential logic of the `tomoru-google-helpers` Rust crate. The crate is a set of helpers for a voice
service. They cover the Yandex Cloud IAM token cache and SpeechKit streaming recognition, the Google Sheets v4 REST
wrapper, Cloud Logging (JSON to protobuf conversion, log contexts, the log builder and its console output), Cloud
Tasks, Speech-to-Text and Text-to-Speech request builders, the build script that nests generated protobuf modules, the
CPU-time arithmetic of the vendored `systemstat` crate, and the "busy" token counter that the health report uses.

The network, the clock, the operating system and the file system are parameters:

- a token exchange endpoint is an oracle function;
- `now` is a number of seconds;
- a service reply is a `Result`.

The panics the model keeps, among them a missing payload, a value that does not serialise, a flush before initialisation, a
second `OnceCell::set` and a nested package placed under a file, are `Err` results of the model. The `unwrap`s listed under
"## Left out" are not modelled and have no `Err` case. Every call that
attaches a bearer token is stated through `Metadata.BearerToken`, which reads the token back out of the header.

Modules, one per source file or concept:

| file | models |
|---|---|
| `Wrappers.dfy` | `Option`, `Result` |
| `Text.dfy` | `to_ascii_uppercase`, `split`, `join`, `replace`, `{:<n}` padding, integer `Display` |
| `Metadata.dfy` | the `"Bearer " + token` metadata value |
| `YandexAuth.dfy` | `src/yandex/auth.rs` |
| `StreamingStt.dfy` | `src/yandex/streaming_stt.rs` |
| `Spreadsheets.dfy` | `src/google/spreadsheets.rs` |
| `Json.dfy` | `serde_json::Value` |
| `GoogleLogging.dfy` | `src/google/logging/google.rs` |
| `Logging.dfy` | `src/logging/mod.rs` |
| `ModTree.dfy` | `build.rs` |
| `CpuStat.dfy` | `systemstat/src/data.rs` |
| `BusyCounter.dfy` | `src/business.rs` and the `business` module of `src/health.rs` (modules `BusyCounter`, `Business`, `Health`) |
| `GoogleTasks.dfy` | `src/google/tasks.rs` |
| `GoogleStt.dfy` | `src/google/stt.rs` |
| `GoogleTts.dfy` | `src/google/tts.rs` |

## Model

| member | source | states |
|---|---|---|
| `Metadata.Bearer` | src/yandex/streaming_stt.rs:63-72 | the authorization value reads back as exactly the token, with the 7-character `Bearer ` prefix |
| `Metadata.BearerTokenInverse` | src/google/tasks.rs:53-55 | every header that reads as a bearer token is that token's rendering |
| `Text.AsciiUpper` | src/google/spreadsheets.rs:41-47 | ASCII upper-casing keeps the length and maps each character on its own |
| `Text.AsciiUpperNormalises` | src/google/spreadsheets.rs:41-47 | upper-casing leaves no lower-case letter, fixes upper-case strings and is idempotent |
| `Text.Split` | build.rs:45 | splitting yields at least one part and no part contains the separator |
| `Text.JoinSplit` | build.rs:41-45 | joining the parts of a split with the separator gives back the string |
| `Text.SplitJoin` | build.rs:41-45 | splitting separator-free parts joined by the separator gives back the parts |
| `Text.ReplacedOccurrencesStartRep` | src/logging/mod.rs:341 | after replacing each line break by the continuation indent, every line break left in the text starts a continuation indent |
| `Text.UnreplaceReplace` | src/logging/mod.rs:341 | replacing each line break by the continuation indent loses nothing: the message can be recovered |
| `Text.PadRight` | src/logging/mod.rs:336-337 | left-aligned padding to a width: the string, then spaces, length the larger of the two |
| `Text.ParseIntToString` | src/google/spreadsheets.rs:326-330 | the decimal rendering of an integer reads back as that integer |
| `YandexAuth.AssertionClaims` | src/yandex/auth.rs:40-50 | the claims are issued at `now`, expire 3600 s later, name the fixed issuer and the exchange URL as audience |
| `YandexAuth.AssertionHeader` | src/yandex/auth.rs:42-43 | the assertion header is PS256 with the fixed key id |
| `YandexAuth.IamTokenRequest` | src/yandex/auth.rs:35-64 | the assertion is POSTed to exactly its own audience, with that header, those claims and the stored key |
| `YandexAuth.GetAuthToken` | src/yandex/auth.rs:69-87 | a token with `expires_at - now > 0` is returned with no exchange and no change; otherwise (empty cache, or expired including equality) exactly one exchange, whose reply is cached; the returned token is always the cached one; no key gives an error |
| `YandexAuth.InitializeAuth` | src/yandex/auth.rs:16-21 | an unparsable key or a second key fails; otherwise the key is stored and the cache is non-empty |
| `YandexAuth.NoExchangeWhileValid` | src/yandex/auth.rs:70-75 | any number of calls while the cached token is valid exchange nothing, change nothing and return the cached token |
| `YandexAuth.TwoCallsOneExchange` | src/yandex/auth.rs:69-87 | two calls a second apart on an empty cache perform one exchange and return the same token |
| `YandexAuth.ExpiredIsRefetched` | src/yandex/auth.rs:73-80 | an expired token (`expires_at <= now`) is replaced by one exchange before anything is returned |
| `StreamingStt.DefaultConfig` | src/yandex/streaming_stt.rs:33-48 | LINEAR16_PCM, 8000 Hz, "ru-RU", "general:rc", partial and raw results, one channel, no profanity filter, not single-utterance, the service's folder id |
| `StreamingStt.ResolveConfig` | src/yandex/streaming_stt.rs:57 | a supplied config is used unchanged, a missing one becomes the default for the folder |
| `StreamingStt.RequestsRoundTrip` | src/yandex/streaming_stt.rs:78-93 | the request stream decodes to exactly the config and the frames, and has one more element than there are frames |
| `StreamingStt.OneConfigFirst` | src/yandex/streaming_stt.rs:80-92 | the first request is the config and every later one is audio |
| `StreamingStt.AudioOfContents` | src/yandex/streaming_stt.rs:86-91 | the audio requests carry the frames byte for byte and in order |
| `StreamingStt.StreamRequests` | src/yandex/streaming_stt.rs:78-93 | the generator loop sends the config and then each received frame in order |
| `StreamingStt.Relay` | src/yandex/streaming_stt.rs:97-103 | responses are forwarded unmodified and in arrival order until the stream ends or the first error stops the spawned relay |
| `StreamingStt.StreamingRecognize` | src/yandex/streaming_stt.rs:50-106 | one session: bearer metadata, the resolved config followed by the frames, and every response delivered in order until the stream ends or the first error stops the relay |
| `Spreadsheets.RangeToString` | src/google/spreadsheets.rs:36-50 | the rendering is `'sheet'!` then the upper-cased start, plus `:` and the upper-cased end exactly when there is an end |
| `Spreadsheets.RangeRoundTrip` | src/google/spreadsheets.rs:36-50 | a rendered range parses back to the range with upper-cased cells, so the sheet name is verbatim |
| `Spreadsheets.RenderingIgnoresCellCase` | src/google/spreadsheets.rs:41-47 | upper-casing the cells first does not change the rendering |
| `Spreadsheets.DimensionFromStringInverse` | src/google/spreadsheets.rs:60-67 | the dimension wire strings are distinct and each names one variant |
| `Spreadsheets.ValueRenderOptionFromStringInverse` | src/google/spreadsheets.rs:95-103 | the value render option wire strings are distinct and each names one variant |
| `Spreadsheets.DateTimeRenderOptionFromStringInverse` | src/google/spreadsheets.rs:130-137 | the date-time render option wire strings are distinct and each names one variant |
| `Spreadsheets.ValueInputOptionFromStringInverse` | src/google/spreadsheets.rs:165-172 | the value input option wire strings are distinct and each names one variant |
| `Spreadsheets.InsertDataOptionFromStringInverse` | src/google/spreadsheets.rs:199-206 | the insert data option wire strings are distinct and each names one variant |
| `Spreadsheets.DefaultWireStrings` | src/google/spreadsheets.rs:69-73 | the defaults are ROWS, FORMATTED_VALUE, FORMATTED_STRING, USER_ENTERED and OVERWRITE |
| `Spreadsheets.GetRequest` | src/google/spreadsheets.rs:284-310 | GET of `.../{id}/values/{range}` with exactly majorDimension, valueRenderOption, dateTimeRenderOption, alt=json in that order, missing options as defaults, bearer auth |
| `Spreadsheets.UpdateRequest` | src/google/spreadsheets.rs:394-437 | PUT with the values as body and the five query pairs in order; a missing include flag is "false" |
| `Spreadsheets.UpdateDateTimeDefaultIsFormattedString` | src/google/spreadsheets.rs:358-361 | a missing response date-time option is sent as FORMATTED_STRING, not the SERIAL_NUMBER the doc comment names |
| `Spreadsheets.AppendRequest` | src/google/spreadsheets.rs:518-570 | POST to `...:append` with the values as body and the six query pairs in order |
| `Spreadsheets.BatchGetQueryRoundTrip` | src/google/spreadsheets.rs:633-654 | the batch query decodes to the rendered ranges in input order, then the three options |
| `Spreadsheets.BatchGetRequest` | src/google/spreadsheets.rs:631-670 | one `ranges` pair per range, in order, ahead of the fixed parameters; GET of `values:batchGet` |
| `Spreadsheets.SpreadsheetInfoRequest` | src/google/spreadsheets.rs:712-728 | GET of the base URL followed by exactly the id, no query |
| `Spreadsheets.BatchUpdateRequest` | src/google/spreadsheets.rs:785-804 | POST of `values:batchUpdate` with the parameters as the body |
| `Spreadsheets.HandleResponse` | src/google/spreadsheets.rs:322-338 | success iff the send succeeded, the status is 2xx and decoding succeeds; transport errors and bad statuses are reported as such |
| `Spreadsheets.UnexpectedStatusCarriesCode` | src/google/spreadsheets.rs:325-330 | the message starts with the fixed prefix, and the word after it, up to the next space, parses back to the status code |
| `GoogleLogging.ToProtoValue` | src/google/logging/google.rs:54-73 | every value gets a kind; null iff `NullValue(0)`; arrays keep their length; objects keep their key set |
| `GoogleLogging.ToProtoStruct` | src/google/logging/google.rs:40-52 | same keys, each value converted |
| `GoogleLogging.ProtoValueRoundTrip` | src/google/logging/google.rs:54-73 | up to the conversion of numbers to `f64`, which the model does not perform, the protobuf form reads back as the same JSON value, nested arrays and objects included |
| `GoogleLogging.PayloadToProto` | src/google/logging/google.rs:75-84 | text stays text with the same string; a JSON map becomes a struct with the same keys |
| `GoogleLogging.PayloadRoundTrip` | src/google/logging/google.rs:75-84 | up to the number-to-`f64` conversion, the payload conversion loses nothing |
| `GoogleLogging.SeverityCodes` | src/google/logging/google.rs:98-119 | the severity codes are exactly the multiples of 100 from 0 to 800, one per variant |
| `GoogleLogging.EntryToProto` | src/google/logging/google.rs:131-144 | timestamp, source location and payload are always set; severity carries its code; labels, operation and request are copied; the rest are defaults |
| `GoogleLogging.EntryRoundTrip` | src/google/logging/google.rs:131-144 | up to the number-to-`f64` conversion in the payload, the entry conversion loses nothing |
| `GoogleLogging.LogNameRoundTrip` | src/google/logging/google.rs:149 | `projects/{p}/logs/{l}` determines p and l when neither contains '/' |
| `GoogleLogging.WriteLog` | src/google/logging/google.rs:146-160 | the request has the formed log name, the resource and labels, every entry converted in order (each one `EntryToProto` of the entry at that index, which converts back to it), partial success and no dry run, bearer auth |
| `Logging.InitializeLogger` | src/logging/mod.rs:12-15 | the project id and log name are set once; a second call fails |
| `Logging.ResourceOf` | src/logging/mod.rs:24-29 | the resource has the type and exactly the labels instance_id, project_id and zone |
| `Logging.DescribeCurrentResource` | src/logging/mod.rs:18-31 | the resource is set once and nothing else changes; a second call fails |
| `Logging.Push` | src/logging/mod.rs:312-321 | a push appends exactly one entry to the queue |
| `Logging.Flush` | src/logging/mod.rs:36-48 | a round always drains the whole queue; once initialised it writes the drained entries as one log with no common labels and the current resource; before initialisation it fails and the drained entries are gone |
| `Logging.EarlyEntriesAreLost` | src/logging/mod.rs:36-41 | entries pushed before `initialize_logger` are drained by the first round and never written |
| `Logging.FlushWritesPushesInOrder` | src/logging/mod.rs:33-53 | pushed entries are written exactly once, in push order, after those already queued |
| `Logging.ToProto` | src/logging/mod.rs:83-97 | the described fields are copied, a missing IP becomes "", the others are defaults |
| `Logging.WithSettersChangeOneField` | src/logging/mod.rs:149-159 | `with_ip` and `with_latency` change exactly their own field of what is sent |
| `Logging.NewContext` | src/logging/mod.rs:169-171 | a new context has no request, no operation and no labels |
| `Logging.Label` | src/logging/mod.rs:173-176 | sets one label and leaves every other label, the request and the operation unchanged |
| `Logging.Request` | src/logging/mod.rs:183-186 | sets the converted request and nothing else |
| `Logging.With` | src/logging/mod.rs:188-199 | the argument's request and operation win when present; labels are the right-biased union |
| `Logging.WithMonoid` | src/logging/mod.rs:168-199 | the empty context is an identity on both sides of `with`, and `with` is associative |
| `Logging.LabelThroughWith` | src/logging/mod.rs:173-199 | a label set on the merged-in context overrides the receiver's |
| `Logging.NoOperationEverSet` | src/logging/mod.rs:168-199 | no public context operation introduces an operation |
| `Logging.NewBuilder` | src/logging/mod.rs:221-238 | a new builder has no payload, the empty context, the clock reading and the given location |
| `Logging.SetContext` | src/logging/mod.rs:240-243 | the context is replaced |
| `Logging.BuilderLabel` | src/logging/mod.rs:245-248 | the builder is unchanged except that its context gets the label, as `LogContext::label` sets it |
| `Logging.BuilderRequest` | src/logging/mod.rs:260-263 | the builder is unchanged except that its context gets the converted request, as `LogContext::request` sets it |
| `Logging.JsonPayloadOf` | src/logging/mod.rs:275-280 | an object becomes a JSON payload with the same members, anything else its text |
| `Logging.EntryOf` | src/logging/mod.rs:289-310 | the entry carries the builder's fields; an operation iff the context has one, with an empty producer |
| `Logging.LabelsText` | src/logging/mod.rs:327-333 | the label text is empty exactly when there are no labels |
| `Logging.ConsoleText` | src/logging/mod.rs:335-342 | the location padded to 29 columns, then ` | `, the function name, a line break, `[` time `]`, the labels and ` -> `, then the message in which every line break opens a continuation indent and from which the message is recovered, then a blank line |
| `Logging.BuildAndPush` | src/logging/mod.rs:286-344 | no payload fails; enabled queues the entry; disabled prints the console text of the text payload, or of the `Debug` form of a JSON map |
| `Logging.SendText` | src/logging/mod.rs:270-273 | sending text never fails; it queues a text payload when enabled and prints exactly the console text of the message when not |
| `Logging.SendJson` | src/logging/mod.rs:275-284 | a value that does not serialise fails with nothing queued or printed; otherwise the JSON payload is queued when enabled, and when not the console text of the map's `Debug` form (an object) or of the rendered value is printed |
| `Logging.SentEntriesHaveNoOperation` | src/logging/mod.rs:300-309 | an entry sent from an operation-free context has no operation |
| `ModTree.Place` | build.rs:45-55 | descending from a file fails; descending into a namespace keeps every sibling |
| `ModTree.PlacedAtItsPath` | build.rs:45-55 | `p1.....pn.rs` ends up as a file node at path `p1 ... pn` |
| `ModTree.PlaceIntoFreshPathSucceeds` | build.rs:51-54 | missing namespaces are created, so a fresh path never fails |
| `ModTree.ShorterFirstPanics` | build.rs:46-54 | `a.rs` then `a.b.rs` fails: the second name has to descend from a file |
| `ModTree.DeeperFirstIsDropped` | build.rs:46-49 | `a.b.rs` then `a.rs` silently discards the `a.b` file |
| `ModTree.BalancedWrap` | build.rs:69-71 | wrapping a balanced output in `pub mod name {` ... `}` keeps it balanced |
| `ModTree.BalancedAppend` | build.rs:68-72 | concatenated balanced outputs are balanced |
| `ModTree.NestedWrap` | build.rs:68-72 | a child's output wrapped in `pub mod name {` ... `}` puts each of the child's files under `name` followed by the file's path in the child |
| `ModTree.NestedAppend` | build.rs:68-72 | outputs for the children of one namespace, written one after another, each keep their files at the right paths |
| `ModTree.OnceWrap` | build.rs:68-72 | wrapping a child's output in `pub mod name {` ... `}` keeps its module and file paths distinct and puts all of them below `name` |
| `ModTree.OnceAppend` | build.rs:68-72 | outputs for children with different names, written one after another, never repeat a module or file path |
| `ModTree.CoversWrap` | build.rs:68-72 | wrapping a child's output in `pub mod name {` ... `}` opens `name` and every module the child's output opens, and writes every file it writes, one level down |
| `ModTree.CoversAppend` | build.rs:67-72 | outputs for the children of one namespace, written one after another, open and write everything each of them does |
| `ModTree.Construct` | build.rs:61-75 | whatever the iteration order, the output is balanced, includes the tree's files and no others, writes each file inside exactly the `pub mod` blocks of its path, opens only modules the tree has and every one of them (namespaces without files included), and opens no module path and writes at no file path more than once |
| `ModTree.PlaceInSrc` | build.rs:38-78 | output is produced exactly when placing every file succeeds, and it is then the rendering of a balanced stream that writes each placed file inside the modules of its path, opens every namespace of the placed tree (a file name with no `rs` part still gets its empty `pub mod` blocks), and writes no module or file path twice |
| `CpuStat.SaturatingSub` | systemstat/src/data.rs:16 | the least count that, added back to the subtrahend, reaches the minuend, never above it |
| `CpuStat.SaturatingSubCases` | systemstat/src/data.rs:16 | `l - r` when `r <= l`, otherwise 0 |
| `CpuStat.SaturatingSubBytes` | systemstat/src/data.rs:14-17 | byte-count subtraction is `l - r` or 0 and never exceeds `l` |
| `CpuStat.Sub` | systemstat/src/data.rs:122-136 | CPU time subtraction is saturating subtraction on each of the six fields |
| `CpuStat.SubLaws` | systemstat/src/data.rs:126-135 | `t - t` is zero, `t - 0` is `t`, and no field of a difference exceeds its minuend's |
| `CpuStat.ToCpuLoad` | systemstat/src/data.rs:139-160 | all shares are zero when the six fields sum to 0, otherwise each field over that sum |
| `CpuStat.SumOfFractions` | systemstat/src/data.rs:150-158 | shares that divide by one common total add up to the sum of their parts over that total |
| `CpuStat.LoadSharesPartitionOne` | systemstat/src/data.rs:139-160 | the shares of a non-empty sample sum to one, those of an empty sample to zero |
| `CpuStat.LoadSharesBounded` | systemstat/src/data.rs:139-160 | each of the six shares lies in [0, 1] |
| `BusyCounter.New` | src/business.rs:12-18 | a new token adds exactly one to the counter and is fresh |
| `BusyCounter.Busy` | src/business.rs:20-25 | `busy()` and `Default` are `new` |
| `BusyCounter.Drop` | src/business.rs:27-32 | dropping a live token takes exactly one away |
| `BusyCounter.NewThenDropRestores` | src/business.rs:8-32 | creating then dropping a token restores the count and the live set |
| `BusyCounter.StartIsValid` | src/business.rs:8 | the counter starts at zero with no token |
| `Business.IsBusyAsWritten` | src/business.rs:34-37 | as written, "busy" holds exactly when no token is live |
| `Business.IsBusyAsWrittenIsInverted` | src/business.rs:34-37 | an idle service reads as busy and a service holding one token as idle |
| `Business.IsBusy` | src/health.rs:54-57 | corrected: busy exactly when some token is live |
| `Business.BusyWhileTokenHeld` | src/business.rs:34-42 | with the correction, holding a token makes the service busy and dropping the only one makes it idle |
| `Health.IsBusy` | src/health.rs:54-57 | busy exactly when some token is live |
| `Health.ReportHealth` | src/health.rs:12-17 | the report's flag is `is_busy()` at the call, the info is passed through |
| `Health.CopiesCompared` | src/health.rs:19-63 | the health copy agrees with the corrected predicate and disagrees with the as-written one on every counter |
| `GoogleTasks.FormQueueRoundTrip` | src/google/tasks.rs:15-20 | the queue name determines project, location and queue when none contains '/' |
| `GoogleTasks.CreateTask` | src/google/tasks.rs:29-68 | parent is the formed queue; the task is an HTTP request with the URL and body unchanged and exactly the JSON content-type header; the task's name, dispatch and response counts and view, and the request's response view stay at their defaults; metadata is exactly bearer auth plus `parent=` and the queue |
| `GoogleStt.DefaultConfig` | src/google/stt.rs:5-26 | encoding 1, 8000 Hz, one channel, "ru", max_alternatives 0, no contexts, default model, enhanced, every flag off |
| `GoogleStt.RecognizeRequestFor` | src/google/stt.rs:30-39 | a supplied config is sent unchanged, a missing one as the default; the URI is the audio source |
| `GoogleStt.FirstTranscript` | src/google/stt.rs:68-72 | a transcript exactly when there is a first result with a first alternative, and then that alternative's transcript |
| `GoogleStt.FirstTranscriptOnlyFirst` | src/google/stt.rs:68-72 | later results never matter, even when the first one is empty |
| `GoogleStt.Recognize` | src/google/stt.rs:28-73 | the request, bearer auth, a failed call as an error and otherwise the first transcript |
| `GoogleTts.DefaultAudioConfig` | src/google/tts.rs:9-18 | encoding 1, 8000 Hz, rate 1.2, pitch 1.0, gain 0.0, no effects profiles |
| `GoogleTts.DefaultVoice` | src/google/tts.rs:20-27 | "ru", "ru-RU-Wavenet-C", gender 2 |
| `GoogleTts.Ssml` | src/google/tts.rs:44-47 | the phrase inside `<speak>` ... `</speak>`, read back exactly, 15 characters longer |
| `GoogleTts.UnwrapSsmlInverse` | src/google/tts.rs:44-47 | every text that unwraps is the wrapping of its content |
| `GoogleTts.NoEscaping` | src/google/tts.rs:44-47 | markup in the phrase is not escaped |
| `GoogleTts.SynthesizeRequest` | src/google/tts.rs:35-50 | supplied configs unchanged, missing ones as defaults, the SSML input wraps the phrase |
| `GoogleTts.Synthesize` | src/google/tts.rs:29-78 | the request, bearer auth, and on success exactly the audio content, on failure the status |

## Left out

- The HTTP and gRPC clients, TLS and service initialisation (`initialize` functions, `OnceCell` service singletons, `service!` macros) are not modelled. Replies are parameters.
- Concurrency is not modelled: the spawned streaming task, the `RwLock` races on the token cache, the 5-second flush loop's timer, the `try_lock` fallback that pushes from a spawned task, the CPU poller, and atomic orderings. Only the sequential meaning is kept.
- Floating point is not modelled. `avg_add`, the `f32` rounding of load shares and `PlatformCpuLoad` other than the Linux `iowait` field are left out. A share is the exact fraction it approximates. The TTS rate, pitch and gain are exact decimals.
- `GoogleLogging.ToProtoValue`: a JSON number is carried as its literal. Its conversion to `f64` is not modelled.
- `GoogleLogging.ProtoValueRoundTrip`, `GoogleLogging.PayloadRoundTrip` and `GoogleLogging.EntryRoundTrip`: these hold only because numbers stay literals. The source's `as_f64` maps `1` and `1.0` to the same value and rounds integers above 2^53, so the real conversion loses those distinctions.
- JWT signing and PEM parsing are left out. A key that fails to parse is the `parsed = None` input.
- Clock reads (`SystemTime::now`, `chrono::Utc::now`, `Timestamp::now`) are parameters. The token cache uses whole seconds both for issuing and for the expiry test, where the source compares `chrono` instants.
- `Logging.Flush`: the panic before initialisation also ends the spawned loop, so no later round runs. The model describes one round and does not model the loop's end.
- Fetch failures in `get_iam_token` panic in the source. The model's exchange oracle always answers, so there is no retry path.
- Integer widths are not modelled for the `u64` claim times, the `usize` sum in `to_cpuload` (its overflow is not modelled) and the `AtomicUsize` counter (wrap-around on drop below zero is excluded by the live-token precondition).
- Percent-encoding of query values by `Url::parse_with_params`, percent-encoding of the URL path, and the JSON body serialisation are not modelled. The query is the list of pairs and the path is the joined text.
- Several `unwrap`s are not modelled. Their panics are not `Err` cases of the model, which treats each one as succeeding:
  - `MetadataValue::from_str` on the bearer value (src/google/tasks.rs:55, src/google/stt.rs:47, src/google/tts.rs:58, src/yandex/streaming_stt.rs:65) and on `parent=` (src/google/tasks.rs:64). These panic on a token or queue name that is not a valid header value.
  - `Url::parse_with_params(..).unwrap()` (src/google/spreadsheets.rs:310, 431, 559, 660) and `Url::parse(..).unwrap()` (src/google/spreadsheets.rs:718, 793).
  - `result.text().await.unwrap()` on a reply whose body cannot be read (src/google/spreadsheets.rs:328, 450, 578, 678, 736, 812).
  - `SERVICE.get().unwrap()` and `auth.token(SCOPES).await.unwrap()` before each Sheets call.
- `build.rs` side effects are not modelled: reading `OUT_DIR`, reading file contents (the `read` parameter), writing `src/generated.rs`, running rustfmt and deleting the directory.
- `src/logging.rs`, `src/tts.rs` and `src/macros.rs` are not part of this model. `src/lib.rs` declares no module for them, and they duplicate logic modelled from `src/google/logging/google.rs` and `src/google/tts.rs`.
- `src/yandex/stt.rs` (a thin HTTP wrapper), `src/sys_info.rs` (OS telemetry), `DelayedMeasurement` and the plain record structs of `systemstat/src/data.rs` are not part of this model.
- The `log!` macros and `function!` are not modelled. The builder takes the location as arguments.
- `Logging.LabelsText`: states only that the text is empty exactly when there are no labels, not the `[k = v]` layout. HashMap iteration order is the `order` parameter.
- `src/health.rs` is not declared by `src/lib.rs` (only `business.rs` is). It is modelled as written anyway.

## Findings

| source | as written | input that shows it | evidently intended | confidence | as-written member | corrected member |
|---|---|---|---|---|---|---|
| src/business.rs:34-37 | `is_busy` returns `BUSINESS_COUNTER == 0` | a fresh process reports busy; after one `busy()` it reports not busy | `!= 0`, as the copy in src/health.rs:54-57 has it and as the name says | high, not executed | `Business.IsBusyAsWritten`, `Business.IsBusyAsWrittenIsInverted` | `Business.IsBusy`, `Business.BusyWhileTokenHeld` |

Two differences between code and documentation are modelled as the code has them and are not findings. First, the `UpdateParams` doc comment names SERIAL_NUMBER as the default date-time option, while `update` sends FORMATTED_STRING (`Spreadsheets.UpdateDateTimeDefaultIsFormattedString`). Second, `build.rs` drops or panics on nested packages depending on directory order (`ModTree.ShorterFirstPanics`, `ModTree.DeeperFirstIsDropped`).

=== FILE: BusyCounter.dfy ===
/** The "business" counter: every live `BusinessToken` adds one to a process-wide counter and
    dropping it takes the one away again, so a service can report whether it is in the middle
    of work. The same code exists twice, in `business.rs` and as a private module of
    `health.rs`; the two copies differ only in `is_busy`.

    Tokens are given identities here so that "live" can be stated; the counter itself is the
    only state the source keeps. Atomic orderings and concurrent callers are not modelled. */
module BusyCounter {

  /** The counter, the tokens alive right now, and the identity the next token gets. */
  datatype Counter = Counter(count: nat, live: set<nat>, next: nat)

  const Start: Counter := Counter(0, {}, 0)

  /** The invariant every reachable counter keeps: it counts the live tokens. */
  predicate Valid(c: Counter) {
    c.count == |c.live| && forall t :: t in c.live ==> t < c.next
  }

  /** `BusinessToken::new`: adds exactly one to the counter and returns a fresh token. */
  function New(c: Counter): (r: (Counter, nat))
    requires Valid(c)
    ensures Valid(r.0)
    ensures r.0.count == c.count + 1
    ensures r.1 !in c.live && r.0.live == c.live + {r.1}
  {
    (Counter(c.count + 1, c.live + {c.next}, c.next + 1), c.next)
  }

  /** `Default for BusinessToken` and `busy()`: both are `new`. */
  function Busy(c: Counter): (r: (Counter, nat))
    requires Valid(c)
    ensures r == New(c)
  {
    New(c)
  }

  /** `Drop for BusinessToken`: takes exactly one away; a token is dropped once, by its
      owner. */
  function Drop(c: Counter, token: nat): (r: Counter)
    requires Valid(c) && token in c.live
    ensures Valid(r)
    ensures r.count + 1 == c.count
    ensures r.live == c.live - {token}
  {
    Counter(c.count - 1, c.live - {token}, c.next)
  }

  /** Taking a token and dropping it again restores the count and the set of live tokens. */
  lemma NewThenDropRestores(c: Counter)
    requires Valid(c)
    ensures var (c1, t) := New(c); Drop(c1, t).count == c.count && Drop(c1, t).live == c.live
  {
  }

  /** The start state is valid: no token, count zero. */
  lemma StartIsValid()
    ensures Valid(Start) && Start.count == 0
  {
  }
}

/** `business.rs`. */
module Business {
  import opened BusyCounter

  /** `is_busy` as written: true when the counter is zero. */
  function IsBusyAsWritten(c: Counter): (b: bool)
    requires Valid(c)
    ensures b <==> c.live == {}
  {
    c.count == 0
  }

  /** A counterexample: right after one `busy()` on an idle service, the as-written
      predicate says "not busy", and on the idle service it says "busy". */
  lemma IsBusyAsWrittenIsInverted()
    ensures IsBusyAsWritten(Start)
    ensures !IsBusyAsWritten(Busy(Start).0)
  {
  }

  /** `is_busy` as `health.rs` and the name intend: true while some token is alive. */
  function IsBusy(c: Counter): (b: bool)
    requires Valid(c)
    ensures b <==> c.live != {}
  {
    c.count != 0
  }

  /** With the corrected predicate, holding a token makes the service busy, and dropping the
      only token makes it idle again. */
  lemma BusyWhileTokenHeld(c: Counter)
    requires Valid(c)
    ensures IsBusy(Busy(c).0)
    ensures c.live == {} ==> !IsBusy(Drop(Busy(c).0, Busy(c).1))
  {
    var (c1, t) := Busy(c);
    assert t in c1.live;
    if c.live == {} {
      assert c1.live - {t} == {};
    }
  }
}

/** `health.rs`: its private copy of the counter and the health report. */
module Health {
  import opened BusyCounter
  import Business

  /** `is_busy`: true iff the counter is not zero. */
  function IsBusy(c: Counter): (b: bool)
    requires Valid(c)
    ensures b <==> c.live != {}
  {
    c.count != 0
  }

  /** `Health`, with the system information (read from the OS) left opaque. */
  datatype HealthReport<Info> = HealthReport(isBusy: bool, info: Info)

  /** `health()`: reports `is_busy()` at the moment of the call. */
  function ReportHealth<Info>(c: Counter, info: Info): (h: HealthReport<Info>)
    requires Valid(c)
    ensures h.isBusy <==> c.live != {}
    ensures h.info == info
  {
    HealthReport(IsBusy(c), info)
  }

  /** The health copy and the corrected `business.rs` predicate agree on every reachable
      counter, and the as-written one disagrees on every reachable counter. */
  lemma CopiesCompared(c: Counter)
    requires Valid(c)
    ensures IsBusy(c) == Business.IsBusy(c)
    ensures IsBusy(c) != Business.IsBusyAsWritten(c)
  {
  }
}

=== FILE: CpuStat.dfy ===
/** The counter arithmetic of the vendored `systemstat` data module: saturating byte-count
    subtraction, the difference of two CPU time samples, and the split of a CPU time sample
    into load shares. Shares are `f32` quotients in the source; here a share is the exact
    fraction it approximates (rounding is not modelled), and `PlatformCpuLoad` is the Linux
    variant, which carries `iowait`. */
module CpuStat {

  const U64Limit: nat := 0x1_0000_0000_0000_0000

  /** `u64`, and `usize` on a 64-bit target. */
  type U64 = n: nat | n < U64Limit

  /** `u64::saturating_sub`: the smallest count that, added back to `r`, reaches `l`. */
  function SaturatingSub(l: U64, r: U64): (d: U64)
    ensures d + r >= l
    ensures forall e: nat {:trigger e + r} :: e + r >= l ==> d <= e
    ensures d <= l
  {
    if r <= l then l - r else 0
  }

  /** The truncating subtraction agrees with integer subtraction exactly when it does not
      saturate. */
  lemma SaturatingSubCases(l: U64, r: U64)
    ensures r <= l ==> SaturatingSub(l, r) == l - r
    ensures r > l ==> SaturatingSub(l, r) == 0
  {
    if r > l {
      assert 0 + r >= l;
    } else {
      assert (l - r) + r >= l;
    }
  }

  /** `ByteSize`: a count of bytes. */
  datatype ByteSize = ByteSize(bytes: U64)

  /** `saturating_sub_bytes`. */
  function SaturatingSubBytes(l: ByteSize, r: ByteSize): (d: ByteSize)
    ensures d.bytes <= l.bytes
    ensures d.bytes + r.bytes >= l.bytes
    ensures r.bytes <= l.bytes ==> d.bytes == l.bytes - r.bytes
    ensures r.bytes > l.bytes ==> d.bytes == 0
  {
    SaturatingSubCases(l.bytes, r.bytes);
    ByteSize(SaturatingSub(l.bytes, r.bytes))
  }

  /** Time spent by the CPU in each state, in platform ticks. */
  datatype CpuTime = CpuTime(user: U64, nice: U64, system: U64, interrupt: U64, idle: U64, other: U64)

  const ZeroTime: CpuTime := CpuTime(0, 0, 0, 0, 0, 0)

  /** `Sub for CpuTime`: field-wise saturating subtraction. */
  function Sub(a: CpuTime, b: CpuTime): (d: CpuTime)
    ensures d.user == SaturatingSub(a.user, b.user) && d.nice == SaturatingSub(a.nice, b.nice)
    ensures d.system == SaturatingSub(a.system, b.system)
    ensures d.interrupt == SaturatingSub(a.interrupt, b.interrupt)
    ensures d.idle == SaturatingSub(a.idle, b.idle) && d.other == SaturatingSub(a.other, b.other)
  {
    CpuTime(SaturatingSub(a.user, b.user), SaturatingSub(a.nice, b.nice),
            SaturatingSub(a.system, b.system), SaturatingSub(a.interrupt, b.interrupt),
            SaturatingSub(a.idle, b.idle), SaturatingSub(a.other, b.other))
  }

  /** `t - t` is zero, `t - 0` is `t`, and no field of a difference exceeds the field it was
      taken from. */
  lemma SubLaws(a: CpuTime, b: CpuTime)
    ensures Sub(a, a) == ZeroTime
    ensures Sub(a, ZeroTime) == a
    ensures var d := Sub(a, b);
            d.user <= a.user && d.nice <= a.nice && d.system <= a.system &&
            d.interrupt <= a.interrupt && d.idle <= a.idle && d.other <= a.other
  {
    SaturatingSubCases(a.user, a.user);
    SaturatingSubCases(a.nice, a.nice);
    SaturatingSubCases(a.system, a.system);
    SaturatingSubCases(a.interrupt, a.interrupt);
    SaturatingSubCases(a.idle, a.idle);
    SaturatingSubCases(a.other, a.other);
    SaturatingSubCases(a.user, 0);
    SaturatingSubCases(a.nice, 0);
    SaturatingSubCases(a.system, 0);
    SaturatingSubCases(a.interrupt, 0);
    SaturatingSubCases(a.idle, 0);
    SaturatingSubCases(a.other, 0);
  }

  /** The sum of the six fields (overflow of the `usize` sum is not modelled). */
  function Total(t: CpuTime): nat {
    t.user + t.nice + t.system + t.interrupt + t.idle + t.other
  }

  /** One share of a load: the literal `0.0`, or `part as f32 / total as f32`. */
  datatype Share = ZeroShare | Fraction(part: nat, total: nat)

  function ShareValue(s: Share): real {
    match s
    case ZeroShare => 0.0
    case Fraction(p, t) => if t == 0 then 0.0 else p as real / t as real
  }

  datatype CpuLoad = CpuLoad(user: Share, nice: Share, system: Share, interrupt: Share, idle: Share, iowait: Share)

  /** `to_cpuload`: with no ticks at all every share is zero; otherwise each field is divided
      by the total of all six, `other` becoming the platform's `iowait`. */
  function ToCpuLoad(t: CpuTime): (l: CpuLoad)
    ensures Total(t) == 0 ==> l == CpuLoad(ZeroShare, ZeroShare, ZeroShare, ZeroShare, ZeroShare, ZeroShare)
    ensures Total(t) > 0 ==>
              l.user == Fraction(t.user, Total(t)) && l.nice == Fraction(t.nice, Total(t)) &&
              l.system == Fraction(t.system, Total(t)) && l.interrupt == Fraction(t.interrupt, Total(t)) &&
              l.idle == Fraction(t.idle, Total(t)) && l.iowait == Fraction(t.other, Total(t))
  {
    var total := t.user + t.nice + t.system + t.interrupt + t.idle + t.other;
    if total == 0 then CpuLoad(ZeroShare, ZeroShare, ZeroShare, ZeroShare, ZeroShare, ZeroShare)
    else CpuLoad(Fraction(t.user, total), Fraction(t.nice, total), Fraction(t.system, total),
                 Fraction(t.interrupt, total), Fraction(t.idle, total), Fraction(t.other, total))
  }

  /** The six shares, in field order. */
  function Shares(l: CpuLoad): seq<Share> {
    [l.user, l.nice, l.system, l.interrupt, l.idle, l.iowait]
  }

  function SumShares(s: seq<Share>): real
    decreases |s|
  {
    if |s| == 0 then 0.0 else ShareValue(s[0]) + SumShares(s[1..])
  }

  /** What the six shares of a load add up to. */
  function LoadSum(l: CpuLoad): real {
    SumShares(Shares(l))
  }

  function SumNat(ps: seq<nat>): nat
    decreases |ps|
  {
    if |ps| == 0 then 0 else ps[0] + SumNat(ps[1..])
  }

  /** Each of `ps` over the common total `t`. */
  function FractionsOver(ps: seq<nat>, t: nat): (s: seq<Share>)
    ensures |s| == |ps| && forall i :: 0 <= i < |ps| ==> s[i] == Fraction(ps[i], t)
  {
    seq(|ps|, i requires 0 <= i < |ps| => Fraction(ps[i], t))
  }

  /** Fractions over one total add up to the sum of their parts over that total. */
  lemma {:induction false} SumOfFractions(ps: seq<nat>, t: nat)
    requires t > 0
    ensures SumShares(FractionsOver(ps, t)) == SumNat(ps) as real / t as real
    decreases |ps|
  {
    if |ps| > 0 {
      var s := FractionsOver(ps, t);
      assert s[1..] == FractionsOver(ps[1..], t);
      SumOfFractions(ps[1..], t);
      var T := t as real;
      assert ps[0] as real / T + SumNat(ps[1..]) as real / T == (ps[0] + SumNat(ps[1..])) as real / T;
    }
  }

  lemma FractionAtMostOne(p: nat, t: nat)
    requires p <= t
    ensures 0.0 <= ShareValue(Fraction(p, t)) <= 1.0
  {
    if t > 0 {
      var T := t as real;
      assert p as real / T <= T / T;
    }
  }

  /** The six fields, in the order the shares take them. */
  function Parts(t: CpuTime): seq<nat> {
    [t.user, t.nice, t.system, t.interrupt, t.idle, t.other]
  }

  lemma {:induction false} PartsSumToTotal(t: CpuTime)
    ensures SumNat(Parts(t)) == Total(t)
  {
    var ps := Parts(t);
    assert ps[1..][1..][1..][1..][1..][1..] == [];
    assert SumNat(ps[1..][1..][1..][1..][1..]) == t.other;
    assert SumNat(ps[1..][1..][1..][1..]) == t.idle + t.other;
    assert SumNat(ps[1..][1..][1..]) == t.interrupt + t.idle + t.other;
    assert SumNat(ps[1..][1..]) == t.system + t.interrupt + t.idle + t.other;
    assert SumNat(ps[1..]) == t.nice + t.system + t.interrupt + t.idle + t.other;
  }

  lemma {:induction false} ZeroSharesSumToZero(n: nat)
    ensures SumShares(seq(n, i => ZeroShare)) == 0.0
  {
    if n > 0 {
      assert seq(n, i => ZeroShare)[1..] == seq(n - 1, i => ZeroShare);
      ZeroSharesSumToZero(n - 1);
    }
  }

  /** The shares of a non-empty sample add up to exactly one (before rounding), those of an
      empty sample to zero. */
  lemma {:induction false} LoadSharesPartitionOne(t: CpuTime)
    ensures Total(t) > 0 ==> LoadSum(ToCpuLoad(t)) == 1.0
    ensures Total(t) == 0 ==> LoadSum(ToCpuLoad(t)) == 0.0
  {
    var n := Total(t);
    var l := ToCpuLoad(t);
    if n > 0 {
      assert Shares(l) == FractionsOver(Parts(t), n);
      SumOfFractions(Parts(t), n);
      PartsSumToTotal(t);
      var T := n as real;
      assert LoadSum(l) == T / T;
      assert T / T == 1.0;
    } else {
      assert Shares(l) == seq(6, i => ZeroShare);
      ZeroSharesSumToZero(6);
    }
  }

  /** Every one of the six shares lies between zero and one. */
  lemma LoadSharesBounded(t: CpuTime)
    ensures forall i :: 0 <= i < |Shares(ToCpuLoad(t))| ==> 0.0 <= ShareValue(Shares(ToCpuLoad(t))[i]) <= 1.0
  {
    var ss := Shares(ToCpuLoad(t));
    forall i | 0 <= i < |ss|
      ensures 0.0 <= ShareValue(ss[i]) <= 1.0
    {
      if ss[i].Fraction? {
        assert ss[i].part <= ss[i].total;
        FractionAtMostOne(ss[i].part, ss[i].total);
      }
    }
  }
}

=== FILE: GoogleLogging.dfy ===
/** The Cloud Logging v2 client: conversion of the crate's log entries and JSON payloads into
    their protobuf form, and the `WriteLogEntriesRequest` that `write_log` sends. */
module GoogleLogging {
  import opened Wrappers
  import opened Text
  import opened Json
  import Metadata

  // ---------------------------------------------------------------------------------------
  // `google.protobuf.Struct` and JSON

  /** `prost_types::value::Kind`; a number is carried as its JSON literal (its `f64` value is
      not modelled). */
  datatype Kind =
    | NullValue(code: int)
    | NumberValue(number: JsonNumber)
    | StringValue(str: string)
    | BoolValue(boolean: bool)
    | StructValue(structure: ProtoStruct)
    | ListValue(values: seq<ProtoValue>)

  datatype ProtoValue = ProtoValue(kind: Option<Kind>)

  datatype ProtoStruct = ProtoStruct(fields: map<string, ProtoValue>)

  /** `serde_json_value_to_proto_value`: every value gets a kind; null is `NullValue(0)`,
      arrays keep their length and order, objects keep their key set. */
  function ToProtoValue(j: Json): (v: ProtoValue)
    ensures v.kind.Some?
    ensures j.Null? <==> v.kind.value == NullValue(0)
    ensures j.Array? ==> v.kind.value.ListValue? && |v.kind.value.values| == |j.items|
    ensures j.Object? ==> v.kind.value.StructValue? && v.kind.value.structure.fields.Keys == j.fields.Keys
  {
    ProtoValue(Some(
      match j
      case Null => NullValue(0)
      case Bool(b) => BoolValue(b)
      case Number(n) => NumberValue(n)
      case String(s) => StringValue(s)
      case Array(items) => ListValue(seq(|items|, i requires 0 <= i < |items| => ToProtoValue(items[i])))
      case Object(fields) => StructValue(ProtoStruct(map k | k in fields :: ToProtoValue(fields[k])))))
  }

  /** `serde_map_to_proto_fields`. */
  function ToProtoStruct(m: map<string, Json>): (s: ProtoStruct)
    ensures s.fields.Keys == m.Keys
    ensures forall k :: k in m ==> s.fields[k] == ToProtoValue(m[k])
  {
    ProtoStruct(map k | k in m :: ToProtoValue(m[k]))
  }

  /** Reads a protobuf value back as JSON; a missing kind or a non-zero null code has no
      JSON counterpart. */
  function FromProtoValue(v: ProtoValue): Option<Json> {
    match v.kind
    case None => None
    case Some(k) =>
      match k
      case NullValue(c) => if c == 0 then Some(Null) else None
      case BoolValue(b) => Some(Bool(b))
      case NumberValue(n) => Some(Number(n))
      case StringValue(s) => Some(String(s))
      case ListValue(vs) =>
        if forall i :: 0 <= i < |vs| ==> FromProtoValue(vs[i]).Some?
        then Some(Array(seq(|vs|, i requires 0 <= i < |vs| && FromProtoValue(vs[i]).Some? =>
                                   FromProtoValue(vs[i]).value)))
        else None
      case StructValue(st) =>
        if forall key :: key in st.fields ==> FromProtoValue(st.fields[key]).Some?
        then Some(Object(map key | key in st.fields && FromProtoValue(st.fields[key]).Some? ::
                                    FromProtoValue(st.fields[key]).value))
        else None
  }

  /** The conversion loses nothing: every JSON value is read back from its protobuf form,
      nested arrays and objects included. */
  lemma {:induction false} ProtoValueRoundTrip(j: Json)
    ensures FromProtoValue(ToProtoValue(j)) == Some(j)
  {
    match j
    case Array(items) =>
      var vs := seq(|items|, i requires 0 <= i < |items| => ToProtoValue(items[i]));
      forall i | 0 <= i < |items| ensures FromProtoValue(vs[i]) == Some(items[i]) {
        ProtoValueRoundTrip(items[i]);
      }
      assert seq(|vs|, i requires 0 <= i < |vs| && FromProtoValue(vs[i]).Some? =>
                         FromProtoValue(vs[i]).value) == items;
    case Object(fields) =>
      var m := map k | k in fields :: ToProtoValue(fields[k]);
      forall k | k in fields ensures FromProtoValue(m[k]) == Some(fields[k]) {
        ProtoValueRoundTrip(fields[k]);
      }
      assert ToProtoValue(j) == ProtoValue(Some(StructValue(ProtoStruct(m))));
      assert forall key :: key in m ==> FromProtoValue(m[key]).Some?;
      var back := map key | key in m && FromProtoValue(m[key]).Some? :: FromProtoValue(m[key]).value;
      assert back.Keys == fields.Keys;
      assert back == fields;
    case _ =>
  }

  // ---------------------------------------------------------------------------------------
  // Payloads, severities, entries

  datatype Timestamp = Timestamp(seconds: int, nanos: int)

  /** The crate's payload: plain text or a JSON object. */
  datatype Payload = PlainText(text: string) | JsonObject(members: map<string, Json>)

  /** `log_entry::Payload`. */
  datatype ProtoPayload = TextPayload(text: string) | JsonPayload(structure: ProtoStruct)

  function PayloadToProto(p: Payload): (q: ProtoPayload)
    ensures p.PlainText? <==> q.TextPayload?
    ensures p.PlainText? ==> q.text == p.text
    ensures p.JsonObject? ==> q.structure.fields.Keys == p.members.Keys
  {
    match p
    case PlainText(t) => TextPayload(t)
    case JsonObject(m) => JsonPayload(ToProtoStruct(m))
  }

  function PayloadFromProto(q: ProtoPayload): Option<Payload> {
    match q
    case TextPayload(t) => Some(PlainText(t))
    case JsonPayload(st) =>
      match FromProtoValue(ProtoValue(Some(StructValue(st))))
      case Some(Object(m)) => Some(JsonObject(m))
      case _ => None
  }

  lemma PayloadRoundTrip(p: Payload)
    ensures PayloadFromProto(PayloadToProto(p)) == Some(p)
  {
    if p.JsonObject? {
      ProtoValueRoundTrip(Object(p.members));
    }
  }

  /** `LogSeverity`, `#[repr(i32)]`. */
  datatype LogSeverity = Default | Debug | Info | Notice | Warning | Error | Critical | Alert | Emergency {
    /** `severity as i32`. */
    function Code(): (c: int)
      ensures SeverityFromCode(c) == Some(this)
      ensures 0 <= c <= 800 && c % 100 == 0
    {
      match this
      case Default => 0
      case Debug => 100
      case Info => 200
      case Notice => 300
      case Warning => 400
      case Error => 500
      case Critical => 600
      case Alert => 700
      case Emergency => 800
    }
  }

  function SeverityFromCode(c: int): Option<LogSeverity> {
    if c == 0 then Some(Default)
    else if c == 100 then Some(Debug)
    else if c == 200 then Some(Info)
    else if c == 300 then Some(Notice)
    else if c == 400 then Some(Warning)
    else if c == 500 then Some(Error)
    else if c == 600 then Some(Critical)
    else if c == 700 then Some(Alert)
    else if c == 800 then Some(Emergency)
    else None
  }

  /** Exactly the nine multiples of 100 from 0 to 800 are severity codes. */
  lemma SeverityCodes(c: int)
    ensures SeverityFromCode(c).Some? <==> 0 <= c <= 800 && c % 100 == 0
    ensures SeverityFromCode(c).Some? ==> SeverityFromCode(c).value.Code() == c
  {
  }

  /** `google.logging.type.HttpRequest`; `latency` is a duration in (seconds, nanos). */
  datatype ProtoHttpRequest = ProtoHttpRequest(
    requestMethod: string,
    requestUrl: string,
    requestSize: int,
    status: int,
    responseSize: int,
    userAgent: string,
    remoteIp: string,
    serverIp: string,
    referer: string,
    latency: Option<(int, int)>,
    cacheLookup: bool,
    cacheHit: bool,
    cacheValidatedWithOriginServer: bool,
    cacheFillBytes: int,
    protocol: string)

  datatype LogEntryOperation = LogEntryOperation(id: string, producer: string, first: bool, last: bool)

  datatype LogEntrySourceLocation = LogEntrySourceLocation(file: string, line: int, functionName: string)

  /** `api::MonitoredResource`. */
  datatype MonitoredResource = MonitoredResource(resourceType: string, labels: map<string, string>)

  /** The crate's `LogEntry`. */
  datatype LogEntry = LogEntry(
    timestamp: Timestamp,
    severity: LogSeverity,
    labels: map<string, string>,
    sourceLocation: LogEntrySourceLocation,
    payload: Payload,
    operation: Option<LogEntryOperation>,
    httpRequest: Option<ProtoHttpRequest>)

  /** `v2::LogEntry`, with the fields the crate leaves at their defaults. */
  datatype ProtoLogEntry = ProtoLogEntry(
    logName: string,
    resource: Option<MonitoredResource>,
    timestamp: Option<Timestamp>,
    receiveTimestamp: Option<Timestamp>,
    severity: int,
    insertId: string,
    httpRequest: Option<ProtoHttpRequest>,
    labels: map<string, string>,
    operation: Option<LogEntryOperation>,
    trace: string,
    spanId: string,
    traceSampled: bool,
    sourceLocation: Option<LogEntrySourceLocation>,
    payload: Option<ProtoPayload>)

  /** `Into<v2::LogEntry>`: timestamp, source location and payload always present, the
      severity as its code, everything else the crate does not set left empty. */
  function EntryToProto(e: LogEntry): (p: ProtoLogEntry)
    ensures p.timestamp == Some(e.timestamp) && p.sourceLocation == Some(e.sourceLocation)
    ensures p.payload == Some(PayloadToProto(e.payload))
    ensures SeverityFromCode(p.severity) == Some(e.severity)
    ensures p.labels == e.labels && p.operation == e.operation && p.httpRequest == e.httpRequest
    ensures p.logName == "" && p.resource.None? && p.receiveTimestamp.None? && p.insertId == ""
    ensures p.trace == "" && p.spanId == "" && !p.traceSampled
  {
    ProtoLogEntry(
      logName := "",
      resource := None,
      timestamp := Some(e.timestamp),
      receiveTimestamp := None,
      severity := e.severity.Code(),
      insertId := "",
      httpRequest := e.httpRequest,
      labels := e.labels,
      operation := e.operation,
      trace := "",
      spanId := "",
      traceSampled := false,
      sourceLocation := Some(e.sourceLocation),
      payload := Some(PayloadToProto(e.payload)))
  }

  function EntryFromProto(p: ProtoLogEntry): Option<LogEntry> {
    if p.timestamp.None? || p.sourceLocation.None? || p.payload.None? then None
    else
      match (SeverityFromCode(p.severity), PayloadFromProto(p.payload.value))
      case (Some(sev), Some(payload)) =>
        Some(LogEntry(p.timestamp.value, sev, p.labels, p.sourceLocation.value, payload,
                      p.operation, p.httpRequest))
      case _ => None
  }

  /** No field of an entry is lost on the way to the wire. */
  lemma EntryRoundTrip(e: LogEntry)
    ensures EntryFromProto(EntryToProto(e)) == Some(e)
  {
    PayloadRoundTrip(e.payload);
  }

  // ---------------------------------------------------------------------------------------
  // write_log

  /** The crate's `Log`: one batch of entries for one log. */
  datatype Log = Log(
    projectId: string,
    logName: string,
    resource: Option<MonitoredResource>,
    labels: map<string, string>,
    entries: seq<LogEntry>)

  datatype WriteLogEntriesRequest = WriteLogEntriesRequest(
    logName: string,
    resource: Option<MonitoredResource>,
    labels: map<string, string>,
    entries: seq<ProtoLogEntry>,
    partialSuccess: bool,
    dryRun: bool)

  /** `format!("projects/{}/logs/{}", project_id, log_name)`. */
  function LogName(projectId: string, logName: string): string {
    "projects/" + projectId + "/logs/" + logName
  }

  /** Reads a full log name back into its project and log. */
  function ParseLogName(s: string): Option<(string, string)> {
    var parts := Split(s, '/');
    if |parts| == 4 && parts[0] == "projects" && parts[2] == "logs" then Some((parts[1], parts[3]))
    else None
  }

  lemma LogNameRoundTrip(projectId: string, logName: string)
    requires '/' !in projectId && '/' !in logName
    ensures ParseLogName(LogName(projectId, logName)) == Some((projectId, logName))
  {
    var s := LogName(projectId, logName);
    assert s == "projects" + ['/'] + (projectId + ['/'] + ("logs" + ['/'] + logName));
    SplitPrefix("projects", projectId + ['/'] + ("logs" + ['/'] + logName), '/');
    SplitPrefix(projectId, "logs" + ['/'] + logName, '/');
    SplitPrefix("logs", logName, '/');
    SplitNoSeparator(logName, '/');
  }

  /** What `write_log` sends: the request and the `authorization` metadata. */
  datatype WriteCall = WriteCall(request: WriteLogEntriesRequest, authorization: string)

  /** `write_log`: the entries in order, each converted; partial success requested, not a dry
      run. */
  function WriteLog(log: Log, token: string): (c: WriteCall)
    ensures c.request.logName == LogName(log.projectId, log.logName)
    ensures c.request.resource == log.resource && c.request.labels == log.labels
    ensures |c.request.entries| == |log.entries|
    ensures forall i :: 0 <= i < |log.entries| ==> c.request.entries[i] == EntryToProto(log.entries[i])
    ensures forall i :: 0 <= i < |log.entries| ==> EntryFromProto(c.request.entries[i]) == Some(log.entries[i])
    ensures c.request.partialSuccess && !c.request.dryRun
    ensures Metadata.BearerToken(c.authorization) == Some(token)
  {
    var entries := seq(|log.entries|, i requires 0 <= i < |log.entries| => EntryToProto(log.entries[i]));
    forall i | 0 <= i < |log.entries| ensures EntryFromProto(entries[i]) == Some(log.entries[i]) {
      EntryRoundTrip(log.entries[i]);
    }
    WriteCall(
      WriteLogEntriesRequest(LogName(log.projectId, log.logName), log.resource, log.labels,
                             entries, true, false),
      Metadata.Bearer(token))
  }
}

=== FILE: GoogleStt.dfy ===
/** Google Speech-to-Text `recognize`: a synchronous recognition of audio stored at a URI,
    answered with the first transcript of the first result. */
module GoogleStt {
  import opened Wrappers
  import Metadata

  /** A message the crate passes through without looking inside (diarization settings,
      recognition metadata). */
  datatype Opaque = Opaque(encoded: seq<bv8>)

  datatype SpeechContext = SpeechContext(phrases: seq<string>)

  datatype RecognitionConfig = RecognitionConfig(
    encoding: int,
    sampleRateHertz: int,
    audioChannelCount: int,
    enableSeparateRecognitionPerChannel: bool,
    languageCode: string,
    maxAlternatives: int,
    profanityFilter: bool,
    speechContexts: seq<SpeechContext>,
    enableWordTimeOffsets: bool,
    enableAutomaticPunctuation: bool,
    diarizationConfig: Option<Opaque>,
    metadata: Option<Opaque>,
    model: string,
    useEnhanced: bool)

  /** `default_config`: LINEAR16 (encoding 1) at 8 kHz, one channel, Russian, at most one
      hypothesis, no speech contexts, the default model, enhanced. */
  function DefaultConfig(): (c: RecognitionConfig)
    ensures c.encoding == 1 && c.sampleRateHertz == 8000 && c.audioChannelCount == 1
    ensures c.languageCode == "ru" && c.maxAlternatives == 0 && c.useEnhanced
    ensures c.speechContexts == [] && c.model == ""
    ensures !c.enableSeparateRecognitionPerChannel && !c.profanityFilter
    ensures !c.enableWordTimeOffsets && !c.enableAutomaticPunctuation
    ensures c.diarizationConfig.None? && c.metadata.None?
  {
    RecognitionConfig(
      encoding := 1,
      sampleRateHertz := 8000,
      audioChannelCount := 1,
      enableSeparateRecognitionPerChannel := false,
      languageCode := "ru",
      maxAlternatives := 0,
      profanityFilter := false,
      speechContexts := [],
      enableWordTimeOffsets := false,
      enableAutomaticPunctuation := false,
      diarizationConfig := None,
      metadata := None,
      model := "",
      useEnhanced := true)
  }

  datatype AudioSource = Content(bytes: seq<bv8>) | Uri(uri: string)

  datatype RecognitionAudio = RecognitionAudio(audioSource: Option<AudioSource>)

  datatype RecognizeRequest = RecognizeRequest(config: Option<RecognitionConfig>, audio: Option<RecognitionAudio>)

  /** The request `recognize` sends: the given configuration (or the default) and the URI as
      the audio source. */
  function RecognizeRequestFor(uri: string, config: Option<RecognitionConfig>): (r: RecognizeRequest)
    ensures config.Some? ==> r.config == config
    ensures config.None? ==> r.config == Some(DefaultConfig())
    ensures r.audio == Some(RecognitionAudio(Some(Uri(uri))))
  {
    RecognizeRequest(Some(config.UnwrapOr(DefaultConfig())), Some(RecognitionAudio(Some(Uri(uri)))))
  }

  datatype SpeechRecognitionAlternative = SpeechRecognitionAlternative(transcript: string, confidence: Opaque)

  datatype SpeechRecognitionResult = SpeechRecognitionResult(alternatives: seq<SpeechRecognitionAlternative>)

  datatype RecognizeResponse = RecognizeResponse(results: seq<SpeechRecognitionResult>)

  /** `results.get(0).and_then(|x| x.alternatives.get(0)).map(|x| x.transcript)`. */
  function FirstTranscript(resp: RecognizeResponse): (t: Option<string>)
    ensures t.Some? <==> |resp.results| > 0 && |resp.results[0].alternatives| > 0
    ensures t.Some? ==> t.value == resp.results[0].alternatives[0].transcript
  {
    if |resp.results| == 0 then None
    else if |resp.results[0].alternatives| == 0 then None
    else Some(resp.results[0].alternatives[0].transcript)
  }

  /** Only the first result is looked at: whatever follows it, and whatever follows its
      first alternative, does not change the answer — even when the first result is empty and
      a later one is not. */
  lemma FirstTranscriptOnlyFirst(first: SpeechRecognitionResult, rest: seq<SpeechRecognitionResult>,
                                 rest': seq<SpeechRecognitionResult>)
    ensures FirstTranscript(RecognizeResponse([first] + rest)) == FirstTranscript(RecognizeResponse([first] + rest'))
    ensures first.alternatives == [] ==> FirstTranscript(RecognizeResponse([first] + rest)).None?
  {
  }

  /** The service's answer, or the status it failed with. */
  datatype Reply = Answer(response: RecognizeResponse) | Failed(status: string)

  /** What `recognize` sends and returns; `Err` is the panic of `unwrap` on a failed call. */
  datatype RecognizeCall = RecognizeCall(request: RecognizeRequest, authorization: string,
                                         outcome: Result<Option<string>, string>)

  function Recognize(uri: string, config: Option<RecognitionConfig>, token: string, reply: Reply)
    : (c: RecognizeCall)
    ensures c.request == RecognizeRequestFor(uri, config)
    ensures Metadata.BearerToken(c.authorization) == Some(token)
    ensures reply.Failed? <==> c.outcome.Err?
    ensures reply.Answer? ==> c.outcome == Ok(FirstTranscript(reply.response))
  {
    RecognizeCall(
      RecognizeRequestFor(uri, config),
      Metadata.Bearer(token),
      match reply
      case Failed(status) => Err(status)
      case Answer(resp) => Ok(FirstTranscript(resp)))
  }
}

=== FILE: GoogleTasks.dfy ===
/** Cloud Tasks `create_task`: an HTTP task with a JSON content type, put on the queue named by
    project, location and queue name. */
module GoogleTasks {
  import opened Wrappers
  import opened Text
  import Metadata

  datatype QueueSettings = QueueSettings(projectId: string, location: string, queueName: string)

  /** `form_queue`: the queue's full resource name. */
  function FormQueue(q: QueueSettings): string {
    "projects/" + q.projectId + "/locations/" + q.location + "/queues/" + q.queueName
  }

  /** Reads a queue resource name back into its three parts. */
  function ParseQueue(s: string): Option<QueueSettings> {
    QueueFromParts(Split(s, '/'))
  }

  function QueueFromParts(parts: seq<string>): Option<QueueSettings> {
    if |parts| == 6 && parts[0] == "projects" && parts[2] == "locations" && parts[4] == "queues"
    then Some(QueueSettings(parts[1], parts[3], parts[5]))
    else None
  }

  /** The resource name determines the settings it was formed from, as long as no part
      contains a '/'. */
  lemma FormQueueRoundTrip(q: QueueSettings)
    requires '/' !in q.projectId && '/' !in q.location && '/' !in q.queueName
    ensures ParseQueue(FormQueue(q)) == Some(q)
  {
    QueueNameParts(q);
  }

  lemma QueueNameParts(q: QueueSettings)
    requires '/' !in q.projectId && '/' !in q.location && '/' !in q.queueName
    ensures Split(FormQueue(q), '/') == ["projects", q.projectId, "locations", q.location, "queues", q.queueName]
  {
    var p, l, u := "projects", "locations", "queues";
    assert '/' !in p && '/' !in l && '/' !in u;
    SplitSix(p, q.projectId, l, q.location, u, q.queueName);
    assert FormQueue(q) == p + "/" + q.projectId + "/" + l + "/" + q.location + "/" + u + "/" + q.queueName;
  }

  /** Six separator-free parts joined by '/' split back into those six parts. */
  lemma {:induction false} SplitSix(a: string, b: string, c: string, d: string, e: string, f: string)
    requires '/' !in a && '/' !in b && '/' !in c && '/' !in d && '/' !in e && '/' !in f
    ensures Split(a + "/" + b + "/" + c + "/" + d + "/" + e + "/" + f, '/') == [a, b, c, d, e, f]
  {
    SplitJoin([a, b, c, d, e, f], '/');
    JoinSix(a, b, c, d, e, f);
  }

  lemma {:induction false} JoinSix(a: string, b: string, c: string, d: string, e: string, f: string)
    ensures Join([a, b, c, d, e, f], "/") == a + "/" + b + "/" + c + "/" + d + "/" + e + "/" + f
  {
    assert Join([e, f], "/") == e + "/" + f by {
      assert [e, f][1..] == [f];
    }
    assert Join([d, e, f], "/") == d + "/" + (e + "/" + f) by {
      assert [d, e, f][1..] == [e, f];
    }
    assert Join([c, d, e, f], "/") == c + "/" + (d + "/" + (e + "/" + f)) by {
      assert [c, d, e, f][1..] == [d, e, f];
    }
    assert Join([b, c, d, e, f], "/") == b + "/" + (c + "/" + (d + "/" + (e + "/" + f))) by {
      assert [b, c, d, e, f][1..] == [c, d, e, f];
    }
    assert Join([a, b, c, d, e, f], "/") == a + "/" + (b + "/" + (c + "/" + (d + "/" + (e + "/" + f)))) by {
      assert [a, b, c, d, e, f][1..] == [b, c, d, e, f];
    }
  }

  datatype TaskData = TaskData(url: string, body: seq<bv8>, queue: QueueSettings)

  /** The task's `HttpRequest`; `httpMethod` 0 is the unspecified method, which the service
      treats as POST. */
  datatype TaskHttpRequest = TaskHttpRequest(
    url: string,
    httpMethod: int,
    headers: map<string, string>,
    body: seq<bv8>)

  /** `Task`, with the fields the crate leaves at their defaults. */
  datatype Task = Task(name: string, dispatchCount: int, responseCount: int, view: int,
                       payload: Option<TaskHttpRequest>)

  datatype CreateTaskRequest = CreateTaskRequest(parent: string, task: Option<Task>, responseView: int)

  /** What `create_task` sends: the request and the gRPC metadata the interceptor adds. */
  datatype CreateTaskCall = CreateTaskCall(request: CreateTaskRequest, metadata: map<string, string>)

  const RoutingKey: string := "x-goog-request-params"

  /** Reads the queue back out of a routing header value `parent=<queue>`. */
  function RoutingParent(v: string): Option<string> {
    if |v| >= 7 && v[..7] == "parent=" then Some(v[7..]) else None
  }

  /** `create_task`: the task is an HTTP request carrying the caller's URL and body unchanged
      with exactly one header, `Content-Type: application/json`; it is created under the
      queue's name, which is also sent as the routing parameter, next to the bearer token. */
  function CreateTask(task: TaskData, token: string): (c: CreateTaskCall)
    ensures c.request.parent == FormQueue(task.queue)
    ensures c.request.task.Some? && c.request.task.value.payload.Some?
    ensures var h := c.request.task.value.payload.value;
            h.url == task.url && h.body == task.body && h.httpMethod == 0 &&
            h.headers == map["Content-Type" := "application/json"]
    // everything else is left at `Task::default()` and `CreateTaskRequest::default()`
    ensures var t := c.request.task.value;
            t.name == "" && t.dispatchCount == 0 && t.responseCount == 0 && t.view == 0 &&
            c.request.responseView == 0
    ensures c.metadata.Keys == {"authorization", RoutingKey}
    ensures Metadata.BearerToken(c.metadata["authorization"]) == Some(token)
    ensures RoutingParent(c.metadata[RoutingKey]) == Some(c.request.parent)
  {
    var queue := FormQueue(task.queue);
    var headers := map["Content-Type" := "application/json"];
    var http := TaskHttpRequest(task.url, 0, headers, task.body);
    var request := CreateTaskRequest(queue, Some(Task("", 0, 0, 0, Some(http))), 0);
    var routing := "parent=" + queue;
    assert routing[7..] == queue;
    CreateTaskCall(request, map["authorization" := Metadata.Bearer(token), RoutingKey := routing])
  }
}

=== FILE: GoogleTts.dfy ===
/** Google Text-to-Speech `synthesize`: the phrase is wrapped in a `<speak>` element and
    synthesised with the given (or default) audio settings and voice. */
module GoogleTts {
  import opened Wrappers
  import Metadata

  /** `AudioConfig`; the `f32` settings are their exact decimal values here. */
  datatype AudioConfig = AudioConfig(
    audioEncoding: int,
    speakingRate: real,
    pitch: real,
    volumeGainDb: real,
    sampleRateHertz: int,
    effectsProfileId: seq<string>)

  datatype VoiceSelectionParams = VoiceSelectionParams(languageCode: string, name: string, ssmlGender: int)

  /** `default_config`: LINEAR16 (encoding 1) at 8 kHz, speaking rate 1.2, normal pitch and
      volume, no effects profiles. */
  function DefaultAudioConfig(): (c: AudioConfig)
    ensures c.audioEncoding == 1 && c.sampleRateHertz == 8000 && c.effectsProfileId == []
    ensures c.speakingRate == 1.2 && c.pitch == 1.0 && c.volumeGainDb == 0.0
  {
    AudioConfig(1, 1.2, 1.0, 0.0, 8000, [])
  }

  /** `default_voice_params`: Russian, the "ru-RU-Wavenet-C" voice, gender code 2. */
  function DefaultVoice(): (v: VoiceSelectionParams)
    ensures v.languageCode == "ru" && v.name == "ru-RU-Wavenet-C" && v.ssmlGender == 2
  {
    VoiceSelectionParams("ru", "ru-RU-Wavenet-C", 2)
  }

  const SpeakOpen: string := "<speak>"
  const SpeakClose: string := "</speak>"

  /** `format!("<speak>{}</speak>", phrase)`: the phrase is inserted as is, without escaping. */
  function Ssml(phrase: string): (s: string)
    ensures |s| == |phrase| + 15
    ensures UnwrapSsml(s) == Some(phrase)
  {
    var s := SpeakOpen + phrase + SpeakClose;
    assert s[..7] == SpeakOpen;
    assert s[|s| - 8..] == SpeakClose;
    assert s[7..|s| - 8] == phrase;
    s
  }

  /** The phrase inside a `<speak>` element, if the text is one. */
  function UnwrapSsml(s: string): Option<string> {
    if |s| >= 15 && s[..7] == SpeakOpen && s[|s| - 8..] == SpeakClose then Some(s[7..|s| - 8])
    else None
  }

  /** Every text that unwraps is the wrapping of what it unwraps to. */
  lemma UnwrapSsmlInverse(s: string, phrase: string)
    requires UnwrapSsml(s) == Some(phrase)
    ensures Ssml(phrase) == s
  {
    assert s == s[..7] + s[7..|s| - 8] + s[|s| - 8..];
  }

  /** Markup in the phrase is passed through: a phrase that closes the element early yields
      a text whose first `</speak>` is not the last. */
  lemma NoEscaping()
    ensures Ssml("</speak>")[7..15] == SpeakClose
    ensures |Ssml("</speak>")| == 23
  {
  }

  datatype InputSource = Text(text: string) | SsmlSource(ssml: string)

  datatype SynthesisInput = SynthesisInput(inputSource: Option<InputSource>)

  datatype SynthesizeSpeechRequest = SynthesizeSpeechRequest(
    audioConfig: Option<AudioConfig>,
    input: Option<SynthesisInput>,
    voice: Option<VoiceSelectionParams>)

  /** The request `synthesize` sends. */
  function SynthesizeRequest(phrase: string, audioConfig: Option<AudioConfig>,
                             voice: Option<VoiceSelectionParams>): (r: SynthesizeSpeechRequest)
    ensures audioConfig.Some? ==> r.audioConfig == audioConfig
    ensures audioConfig.None? ==> r.audioConfig == Some(DefaultAudioConfig())
    ensures voice.Some? ==> r.voice == voice
    ensures voice.None? ==> r.voice == Some(DefaultVoice())
    ensures r.input.Some? && r.input.value.inputSource.Some? && r.input.value.inputSource.value.SsmlSource?
    ensures UnwrapSsml(r.input.value.inputSource.value.ssml) == Some(phrase)
  {
    SynthesizeSpeechRequest(
      Some(audioConfig.UnwrapOr(DefaultAudioConfig())),
      Some(SynthesisInput(Some(SsmlSource(Ssml(phrase))))),
      Some(voice.UnwrapOr(DefaultVoice())))
  }

  datatype SynthesizeSpeechResponse = SynthesizeSpeechResponse(audioContent: seq<bv8>)

  datatype SynthesizeCall = SynthesizeCall(request: SynthesizeSpeechRequest, authorization: string,
                                           outcome: Result<seq<bv8>, string>)

  /** `synthesize`: the service's status on failure, exactly the audio content on success. */
  function Synthesize(phrase: string, audioConfig: Option<AudioConfig>, voice: Option<VoiceSelectionParams>,
                      token: string, reply: Result<SynthesizeSpeechResponse, string>): (c: SynthesizeCall)
    ensures c.request == SynthesizeRequest(phrase, audioConfig, voice)
    ensures Metadata.BearerToken(c.authorization) == Some(token)
    ensures reply.Ok? ==> c.outcome == Ok(reply.value.audioContent)
    ensures reply.Err? ==> c.outcome == Err(reply.error)
  {
    SynthesizeCall(
      SynthesizeRequest(phrase, audioConfig, voice),
      Metadata.Bearer(token),
      match reply
      case Ok(resp) => Ok(resp.audioContent)
      case Err(status) => Err(status))
  }
}

=== FILE: Json.dfy ===
/** `serde_json::Value`. A number is kept as the literal it was written as: the crate only
    ever converts it to `f64`, which is not modelled. */
module Json {

  datatype JsonNumber = JsonNumber(literal: string)

  datatype Json =
    | Null
    | Bool(b: bool)
    | Number(n: JsonNumber)
    | String(s: string)
    | Array(items: seq<Json>)
    | Object(fields: map<string, Json>)
}

=== FILE: Logging.dfy ===
/** The crate's logger front end: request descriptions, reusable log contexts, the log
    builder, and what `build_and_push` does with a finished entry — queue it for Cloud Logging
    when `GOOGLE_LOGGING_ENABLED` was "true" at build time, print it otherwise.

    The clock and the console time stamp are parameters; the order in which a `HashMap` is
    iterated is the parameter `order`, any enumeration of its keys; `Debug` rendering of a
    JSON map and `Display` of a JSON value are the parameters `debugRender` and `render`. */
module Logging {
  import opened Wrappers
  import opened Text
  import opened Json
  import opened GoogleLogging

  // ---------------------------------------------------------------------------------------
  // Process-wide cells and the queue

  datatype LoggerError =
    | AlreadyInitialised         // `PROJECT_ID` or `LOG_NAME` set twice
    | ResourceAlreadyDescribed   // `CURRENT_RESOURCE` set twice
    | NotInitialised             // the flush loop ran before `initialize_logger`
    | NotSerialisable            // `serde_json::to_value` failed in `send_json`
    | MissingPayload             // `build_and_push` with no payload

  /** `PROJECT_ID`, `LOG_NAME`, `CURRENT_RESOURCE` and `LOGGER_QUEUE`. */
  datatype LoggerState = LoggerState(
    projectId: Option<string>,
    logName: Option<string>,
    resource: Option<MonitoredResource>,
    queue: seq<LogEntry>)

  const Fresh: LoggerState := LoggerState(None, None, None, [])

  /** `initialize_logger`: both cells are set once; a second call panics. */
  function InitializeLogger(st: LoggerState, projectId: string, logName: string): (r: Result<LoggerState, LoggerError>)
    ensures r.Ok? <==> st.projectId.None? && st.logName.None?
    ensures r.Ok? ==> r.value == st.(projectId := Some(projectId), logName := Some(logName))
    ensures r.Err? ==> r.error == AlreadyInitialised
  {
    if st.projectId.Some? || st.logName.Some? then Err(AlreadyInitialised)
    else Ok(st.(projectId := Some(projectId), logName := Some(logName)))
  }

  /** The monitored resource `describe_current_resource` records. */
  function ResourceOf(resourceType: string, instanceId: string, projectId: string, zone: string)
    : (m: MonitoredResource)
    ensures m.resourceType == resourceType
    ensures m.labels.Keys == {"instance_id", "project_id", "zone"}
    ensures m.labels["instance_id"] == instanceId && m.labels["project_id"] == projectId
    ensures m.labels["zone"] == zone
  {
    MonitoredResource(resourceType, map["instance_id" := instanceId, "project_id" := projectId, "zone" := zone])
  }

  /** `describe_current_resource`: sets the resource once; a second call panics. */
  function DescribeCurrentResource(st: LoggerState, resourceType: string, instanceId: string,
                                   projectId: string, zone: string): (r: Result<LoggerState, LoggerError>)
    ensures r.Ok? <==> st.resource.None?
    ensures r.Ok? ==> r.value.resource == Some(ResourceOf(resourceType, instanceId, projectId, zone))
    ensures r.Ok? ==> r.value.projectId == st.projectId && r.value.logName == st.logName && r.value.queue == st.queue
  {
    if st.resource.Some? then Err(ResourceAlreadyDescribed)
    else Ok(st.(resource := Some(ResourceOf(resourceType, instanceId, projectId, zone))))
  }

  /** A push onto `LOGGER_QUEUE`. */
  function Push(st: LoggerState, e: LogEntry): (r: LoggerState)
    ensures r.queue == st.queue + [e]
    ensures r.projectId == st.projectId && r.logName == st.logName && r.resource == st.resource
  {
    st.(queue := st.queue + [e])
  }

  /** One round of the background loop: `written` is what goes to `write_log`, `after` the
      state the round leaves behind. */
  datatype FlushRound = FlushRound(written: Result<Log, LoggerError>, after: LoggerState)

  /** One round of the background loop. The whole queue is drained first; then the log is
      formed with no common labels and the current resource. Without `initialize_logger` the
      `unwrap` of the project id or log name panics after the drain, so the drained entries
      are lost (and the panic ends the loop for good). */
  function Flush(st: LoggerState): (r: FlushRound)
    ensures r.after == st.(queue := [])
    ensures r.written.Ok? <==> st.projectId.Some? && st.logName.Some?
    ensures r.written.Ok? ==> r.written.value.entries == st.queue
    ensures r.written.Ok? ==> r.written.value.labels == map[] && r.written.value.resource == st.resource
    ensures r.written.Ok? ==> r.written.value.projectId == st.projectId.value && r.written.value.logName == st.logName.value
  {
    var drained := st.(queue := []);
    match (st.projectId, st.logName)
    case (Some(p), Some(l)) => FlushRound(Ok(Log(p, l, st.resource, map[], st.queue)), drained)
    case _ => FlushRound(Err(NotInitialised), drained)
  }

  /** Pushes the entries one by one. */
  function PushAll(st: LoggerState, es: seq<LogEntry>): LoggerState
    decreases |es|
  {
    if |es| == 0 then st else PushAll(Push(st, es[0]), es[1..])
  }

  /** Entries reach Cloud Logging exactly once and in the order they were pushed: a flush
      after any pushes writes the previously queued entries followed by the pushed ones. */
  lemma {:induction false} FlushWritesPushesInOrder(st: LoggerState, es: seq<LogEntry>)
    requires st.projectId.Some? && st.logName.Some?
    ensures Flush(PushAll(st, es)).written.Ok?
    ensures Flush(PushAll(st, es)).written.value.entries == st.queue + es
    ensures Flush(PushAll(st, es)).after.queue == []
    decreases |es|
  {
    if |es| > 0 {
      FlushWritesPushesInOrder(Push(st, es[0]), es[1..]);
      assert st.queue + [es[0]] + es[1..] == st.queue + es;
    }
  }

  /** Pushing touches nothing but the queue. */
  lemma {:induction false} PushAllKeepsCells(st: LoggerState, es: seq<LogEntry>)
    ensures PushAll(st, es) == st.(queue := st.queue + es)
    decreases |es|
  {
    if |es| > 0 {
      PushAllKeepsCells(Push(st, es[0]), es[1..]);
      assert st.queue + [es[0]] + es[1..] == st.queue + es;
    } else {
      assert st.queue + es == st.queue;
    }
  }

  /** Entries logged before `initialize_logger` are drained by the first round and never
      written. */
  lemma EarlyEntriesAreLost(es: seq<LogEntry>)
    ensures Flush(PushAll(Fresh, es)).written.Err?
    ensures Flush(PushAll(Fresh, es)).after.queue == []
  {
    PushAllKeepsCells(Fresh, es);
  }

  // ---------------------------------------------------------------------------------------
  // Request descriptions

  /** `std::time::Duration`. */
  datatype Duration = Duration(secs: nat, nanos: nat)

  /** The crate's `HttpRequest`: the fields a caller describes. */
  datatype HttpRequest = HttpRequest(
    requestMethod: string,
    requestUrl: string,
    requestSize: int,
    userAgent: string,
    remoteIp: Option<string>,
    referer: string,
    latency: Option<Duration>,
    protocol: string)

  /** `Into<google::HttpRequest>`: the described fields are copied, a missing IP becomes the
      empty string, and the fields the crate has no source for keep their defaults. */
  function ToProto(h: HttpRequest): (p: ProtoHttpRequest)
    ensures p.requestMethod == h.requestMethod && p.requestUrl == h.requestUrl
    ensures p.requestSize == h.requestSize && p.userAgent == h.userAgent
    ensures p.referer == h.referer && p.protocol == h.protocol
    ensures h.remoteIp.Some? ==> p.remoteIp == h.remoteIp.value
    ensures h.remoteIp.None? ==> p.remoteIp == ""
    ensures h.latency.Some? <==> p.latency.Some?
    ensures h.latency.Some? ==> p.latency.value == (h.latency.value.secs, h.latency.value.nanos)
    ensures p.status == 0 && p.responseSize == 0 && p.serverIp == "" && p.cacheFillBytes == 0
    ensures !p.cacheLookup && !p.cacheHit && !p.cacheValidatedWithOriginServer
  {
    ProtoHttpRequest(
      requestMethod := h.requestMethod,
      requestUrl := h.requestUrl,
      requestSize := h.requestSize,
      status := 0,
      responseSize := 0,
      userAgent := h.userAgent,
      remoteIp := h.remoteIp.UnwrapOr(""),
      serverIp := "",
      referer := h.referer,
      latency := match h.latency case Some(d) => Some((d.secs as int, d.nanos as int)) case None => None,
      cacheLookup := false,
      cacheHit := false,
      cacheValidatedWithOriginServer := false,
      cacheFillBytes := 0,
      protocol := h.protocol)
  }

  function WithLatency(h: HttpRequest, latency: Duration): HttpRequest {
    h.(latency := Some(latency))
  }

  function WithIp(h: HttpRequest, ip: string): HttpRequest {
    h.(remoteIp := Some(ip))
  }

  /** `with_ip` and `with_latency` change exactly one field of what is sent. */
  lemma WithSettersChangeOneField(h: HttpRequest, ip: string, latency: Duration)
    ensures ToProto(WithIp(h, ip)) == ToProto(h).(remoteIp := ip)
    ensures ToProto(WithLatency(h, latency)) == ToProto(h).(latency := Some((latency.secs as int, latency.nanos as int)))
  {
  }

  // ---------------------------------------------------------------------------------------
  // LogContext

  datatype LogContext = LogContext(
    request: Option<ProtoHttpRequest>,
    operation: Option<string>,
    labels: map<string, string>)

  /** `LogContext::new`: no request, no operation, no labels. */
  function NewContext(): (c: LogContext)
    ensures c.request.None? && c.operation.None? && c.labels == map[]
  {
    LogContext(None, None, map[])
  }

  /** `LogContext::label`: sets one label, overwriting an earlier value for the same name. */
  function Label(c: LogContext, name: string, value: string): (r: LogContext)
    ensures r.labels.Keys == c.labels.Keys + {name} && r.labels[name] == value
    ensures forall k :: k in c.labels && k != name ==> r.labels[k] == c.labels[k]
    ensures r.request == c.request && r.operation == c.operation
  {
    c.(labels := c.labels[name := value])
  }

  /** `LogContext::request`. */
  function Request(c: LogContext, request: HttpRequest): (r: LogContext)
    ensures r.request == Some(ToProto(request))
    ensures r.operation == c.operation && r.labels == c.labels
  {
    c.(request := Some(ToProto(request)))
  }

  /** `LogContext::with`: what `other` sets wins — its request and operation when present,
      and its value for every label it has. */
  function With(c: LogContext, other: LogContext): (r: LogContext)
    ensures r.request == if other.request.Some? then other.request else c.request
    ensures r.operation == if other.operation.Some? then other.operation else c.operation
    ensures r.labels.Keys == c.labels.Keys + other.labels.Keys
    ensures forall k :: k in other.labels ==> r.labels[k] == other.labels[k]
    ensures forall k :: k in c.labels && k !in other.labels ==> r.labels[k] == c.labels[k]
  {
    LogContext(
      if other.request.Some? then other.request else c.request,
      if other.operation.Some? then other.operation else c.operation,
      c.labels + other.labels)
  }

  /** The empty context is an identity on both sides of `with`, and merging is associative,
      so a chain of contexts can be merged in any grouping. */
  lemma WithMonoid(a: LogContext, b: LogContext, c: LogContext)
    ensures With(a, NewContext()) == a
    ensures With(NewContext(), a) == a
    ensures With(With(a, b), c) == With(a, With(b, c))
  {
    assert With(a, NewContext()).labels == a.labels;
    assert With(NewContext(), a).labels == a.labels;
    assert With(With(a, b), c).labels == With(a, With(b, c)).labels;
  }

  /** Setting a label and merging commute as `with` promises: a label set on the merged-in
      context overrides the receiver's. */
  lemma {:induction false} LabelThroughWith(a: LogContext, b: LogContext, k: string, v: string)
    ensures With(a, Label(b, k, v)) == Label(With(a, b), k, v)
  {
    var l := With(a, Label(b, k, v)).labels;
    var m := Label(With(a, b), k, v).labels;
    assert l.Keys == m.Keys;
    forall key | key in l ensures l[key] == m[key] {
      if key != k && key !in b.labels {
        assert l[key] == a.labels[key];
      }
    }
    assert l == m;
  }

  /** No public setter of the crate sets an operation: `new`, `label`, `request` and `with`
      of operation-free contexts are operation-free. */
  lemma NoOperationEverSet(c: LogContext, d: LogContext, k: string, v: string, h: HttpRequest)
    requires c.operation.None? && d.operation.None?
    ensures NewContext().operation.None?
    ensures Label(c, k, v).operation.None? && Request(c, h).operation.None?
    ensures With(c, d).operation.None?
  {
  }

  // ---------------------------------------------------------------------------------------
  // LogBuilder

  datatype LogBuilder = LogBuilder(
    payload: Option<Payload>,
    context: LogContext,
    time: Timestamp,
    severity: LogSeverity,
    file: string,
    fnName: string,
    line: int,
    operationFirst: bool,
    operationLast: bool)

  /** `LogBuilder::new`, with the clock's reading `now`. */
  function NewBuilder(severity: LogSeverity, line: int, file: string, fnName: string, now: Timestamp)
    : (b: LogBuilder)
    ensures b.payload.None? && b.context == NewContext() && b.time == now
    ensures b.severity == severity && b.line == line && b.file == file && b.fnName == fnName
    ensures !b.operationFirst && !b.operationLast
  {
    LogBuilder(None, NewContext(), now, severity, file, fnName, line, false, false)
  }

  /** `LogBuilder::context`: replaces the whole context. */
  function SetContext(b: LogBuilder, c: LogContext): (r: LogBuilder)
    ensures r.context == c && r == b.(context := c)
  {
    b.(context := c)
  }

  /** `LogBuilder::label`: the same as `LogContext::label` on the builder's context. */
  function BuilderLabel(b: LogBuilder, name: string, value: string): (r: LogBuilder)
    ensures r == b.(context := Label(b.context, name, value))
  {
    b.(context := b.context.(labels := b.context.labels[name := value]))
  }

  /** `LogBuilder::request`: the same as `LogContext::request` on the builder's context. */
  function BuilderRequest(b: LogBuilder, request: HttpRequest): (r: LogBuilder)
    ensures r == b.(context := Request(b.context, request))
  {
    b.(context := b.context.(request := Some(ToProto(request))))
  }

  /** The payload `send_json` makes of a serialised value: an object is sent as structured
      JSON, anything else as its `Display` text. */
  function JsonPayloadOf(j: Json, render: Json -> string): (p: Payload)
    ensures j.Object? <==> p.JsonObject?
    ensures j.Object? ==> p.members == j.fields
    ensures !j.Object? ==> p == PlainText(render(j))
  {
    match j
    case Object(m) => JsonObject(m)
    case _ => PlainText(render(j))
  }

  /** The entry `build_and_push` queues: the builder's time, severity, labels, source
      location, payload and request; an operation only if the context has one, with an
      empty producer. */
  function EntryOf(b: LogBuilder, payload: Payload): (e: LogEntry)
    ensures e.timestamp == b.time && e.severity == b.severity && e.payload == payload
    ensures e.labels == b.context.labels && e.httpRequest == b.context.request
    ensures e.sourceLocation == LogEntrySourceLocation(b.file, b.line, b.fnName)
    ensures e.operation.Some? <==> b.context.operation.Some?
    ensures e.operation.Some? ==>
              e.operation.value == LogEntryOperation(b.context.operation.value, "", b.operationFirst, b.operationLast)
  {
    LogEntry(
      timestamp := b.time,
      severity := b.severity,
      labels := b.context.labels,
      sourceLocation := LogEntrySourceLocation(b.file, b.line, b.fnName),
      payload := payload,
      operation := match b.context.operation
                   case Some(id) => Some(LogEntryOperation(id, "", b.operationFirst, b.operationLast))
                   case None => None,
      httpRequest := b.context.request)
  }

  /** `order` lists every key of `m` exactly once. */
  predicate Enumerates(order: seq<string>, m: map<string, string>) {
    (forall i :: 0 <= i < |order| ==> order[i] in m) &&
    (forall k :: k in m ==> k in order) &&
    (forall i, j :: 0 <= i < j < |order| ==> order[i] != order[j])
  }

  /** `[name = value]` per label in iteration order, joined by single spaces. */
  function LabelsText(m: map<string, string>, order: seq<string>): (s: string)
    requires Enumerates(order, m)
    ensures s == "" <==> m == map[]
  {
    if |order| == 0 then
      assert m.Keys == {};
      ""
    else
      assert order[0] in m;
      var items := seq(|order|, i requires 0 <= i < |order| => "[" + order[i] + " = " + m[order[i]] + "]");
      JoinNonEmpty(items, " ");
      Join(items, " ")
  }

  lemma {:induction false} JoinNonEmpty(parts: seq<string>, sep: string)
    requires |parts| > 0 && |parts[0]| > 0
    ensures Join(parts, sep) != ""
  {
    if |parts| > 1 {
      assert |Join(parts, sep)| >= |parts[0]|;
    }
  }

  /** The indent every continuation line of a message gets on the console. */
  const Continuation: string := "\n>   "

  /** The two console lines (and the blank line `println!` adds) for an entry: location
      padded to 29 columns, ` | `, the function name, a line break, the time stamp in
      brackets, the labels, ` -> `, then the message with every line break followed by the
      continuation indent. */
  function ConsoleText(b: LogBuilder, clock: string, labels: string, text: string): (s: string)
    ensures var head := PadRight(b.file + ":" + IntToString(b.line), 29);
            var p := |head| + 3 + |b.fnName| + 2 + |clock| + 1 + |labels| + 4;
            |head| >= 29 && p + 2 <= |s| && s[..|head|] == head &&
            s[|head|..p] == " | " + b.fnName + "\n[" + clock + "]" + labels + " -> " &&
            s[|s| - 2..] == "\n\n" &&
            UnreplaceChar(s[p..|s| - 2], '\n', Continuation) == text &&
            OccurrencesStart(s[p..|s| - 2], '\n', Continuation)
  {
    var head := PadRight(b.file + ":" + IntToString(b.line), 29);
    var body := ReplaceChar(text, '\n', Continuation);
    var middle := " | " + b.fnName + "\n[" + clock + "]" + labels + " -> ";
    var prefix := head + middle;
    var s := prefix + body + "\n\n";
    assert s[..|head|] == head;
    assert s[|head|..|prefix|] == middle;
    assert s[|prefix|..|s| - 2] == body;
    UnreplaceReplace(text, '\n', Continuation);
    assert Continuation[1..] == ">   ";
    ReplacedOccurrencesStartRep(text, '\n', Continuation);
    s
  }

  /** Where a finished builder ends up. */
  datatype Output = Queued(entry: LogEntry) | Printed(text: string)

  /** `build_and_push`: with Cloud Logging enabled the entry is queued, otherwise its text
      (a JSON map in its `Debug` form) is printed with the labels in `order`. */
  function BuildAndPush(b: LogBuilder, enabled: bool, clock: string, order: seq<string>,
                        debugRender: map<string, Json> -> string): (r: Result<Output, LoggerError>)
    requires Enumerates(order, b.context.labels)
    ensures b.payload.None? <==> r.Err?
    ensures r.Ok? ==> (enabled <==> r.value.Queued?)
    ensures r.Ok? && enabled ==> r.value.entry == EntryOf(b, b.payload.value)
    ensures r.Ok? && !enabled && b.payload.value.PlainText? ==>
              r.value.text == ConsoleText(b, clock, LabelsText(b.context.labels, order), b.payload.value.text)
    ensures r.Ok? && !enabled && b.payload.value.JsonObject? ==>
              r.value.text == ConsoleText(b, clock, LabelsText(b.context.labels, order),
                                          debugRender(b.payload.value.members))
  {
    match b.payload
    case None => Err(MissingPayload)
    case Some(payload) =>
      if enabled then Ok(Queued(EntryOf(b, payload)))
      else
        var text := match payload case PlainText(s) => s case JsonObject(m) => debugRender(m);
        Ok(Printed(ConsoleText(b, clock, LabelsText(b.context.labels, order), text)))
  }

  /** `send_text`: never panics, and the message is either queued as a text payload or
      recoverable from the printed lines. */
  function SendText(b: LogBuilder, text: string, enabled: bool, clock: string, order: seq<string>,
                    debugRender: map<string, Json> -> string): (r: Result<Output, LoggerError>)
    requires Enumerates(order, b.context.labels)
    ensures r.Ok?
    ensures enabled ==> r.value.Queued? && r.value.entry.payload == PlainText(text)
    ensures !enabled ==> r == Ok(Printed(ConsoleText(b, clock, LabelsText(b.context.labels, order), text)))
  {
    BuildAndPush(b.(payload := Some(PlainText(text))), enabled, clock, order, debugRender)
  }

  /** `send_json`, given the outcome of `serde_json::to_value`: a value that cannot be
      serialised (a map with non-string keys, a failing `Serialize` impl) makes the `unwrap`
      panic before anything is queued or printed. */
  function SendJson(b: LogBuilder, toValue: Result<Json, string>, enabled: bool, clock: string,
                    order: seq<string>, render: Json -> string, debugRender: map<string, Json> -> string)
    : (r: Result<Output, LoggerError>)
    requires Enumerates(order, b.context.labels)
    ensures r.Ok? <==> toValue.Ok?
    ensures toValue.Err? ==> r == Err(NotSerialisable)
    ensures toValue.Ok? && enabled ==>
              r.value.Queued? && r.value.entry.payload == JsonPayloadOf(toValue.value, render)
    ensures toValue.Ok? && enabled && toValue.value.Object? ==>
              r.value.entry.payload == JsonObject(toValue.value.fields)
    ensures toValue.Ok? && !enabled ==>
              r == Ok(Printed(ConsoleText(b, clock, LabelsText(b.context.labels, order),
                                          if toValue.value.Object? then debugRender(toValue.value.fields)
                                          else render(toValue.value))))
  {
    match toValue
    case Err(_) => Err(NotSerialisable)
    case Ok(j) => BuildAndPush(b.(payload := Some(JsonPayloadOf(j, render))), enabled, clock, order, debugRender)
  }

  /** A builder made with the public API and sent queues an entry with no operation. */
  lemma SentEntriesHaveNoOperation(b: LogBuilder, text: string, clock: string, order: seq<string>,
                                   debugRender: map<string, Json> -> string)
    requires b.context.operation.None?
    requires Enumerates(order, b.context.labels)
    ensures SendText(b, text, true, clock, order, debugRender).value.entry.operation.None?
  {
  }
}

=== FILE: Metadata.dfy ===
/** The `authorization` metadata value every gRPC caller of the crate attaches:
    `format!("Bearer {}", token)`. */
module Metadata {
  import opened Wrappers

  const BearerPrefix: string := "Bearer "

  /** Reads the token back out of an `authorization` value, if it is a bearer one. */
  function BearerToken(header: string): Option<string> {
    if |BearerPrefix| <= |header| && header[..|BearerPrefix|] == BearerPrefix
    then Some(header[|BearerPrefix|..])
    else None
  }

  /** The header value for `token`; reading it back yields exactly `token`. */
  function Bearer(token: string): (header: string)
    ensures BearerToken(header) == Some(token)
    ensures |header| == |token| + 7
  {
    BearerPrefix + token
  }

  /** Every header that reads as a bearer token is the rendering of that token. */
  lemma BearerTokenInverse(header: string, token: string)
    requires BearerToken(header) == Some(token)
    ensures Bearer(token) == header
  {
    assert header == header[..|BearerPrefix|] + header[|BearerPrefix|..];
  }
}

=== FILE: ModTree.dfy ===
/** The build script's module tree: the Rust files `tonic_build` writes are named after their
    protobuf package (`google.logging.v2.rs`); they are arranged into a tree of namespaces and
    emitted as one file of nested `pub mod name { ... }` blocks.

    Reading the output directory is the parameter `files` (in directory order); reading a
    file's contents is the parameter `read`. Running rustfmt and deleting the directory are
    not modelled. */
module ModTree {
  import opened Wrappers
  import opened Text

  /** `TreeEntry`: a generated file, or a namespace with named children. */
  datatype Tree = Node(file: string) | Branch(children: map<string, Tree>)

  /** `get`, `get_mut` and `insert` on a `Node`, and the `unwrap`s around them, panic. */
  datatype BuildError = Panic

  const Empty: Tree := Branch(map[])

  /** The entry reached by following `path` from `t`, if every step is a namespace that has
      the next name. */
  function Get(t: Tree, path: seq<string>): Option<Tree>
    decreases |path|
  {
    if |path| == 0 then Some(t)
    else if t.Node? || path[0] !in t.children then None
    else Get(t.children[path[0]], path[1..])
  }

  /** The walk of one file name's dot-separated parts: a part "rs" replaces the current entry
      by `Node(file)` (dropping whatever was there); any other part descends into that child,
      creating an empty namespace first if it is missing, and panics on a `Node`. */
  function Place(t: Tree, parts: seq<string>, file: string): (r: Result<Tree, BuildError>)
    // descending from a file panics
    ensures |parts| > 0 && parts[0] != "rs" && t.Node? ==> r.Err?
    // descending from a namespace leaves every sibling as it was
    ensures |parts| > 0 && parts[0] != "rs" && t.Branch? && r.Ok? ==>
              r.value.Branch? && r.value.children.Keys == t.children.Keys + {parts[0]} &&
              forall k :: k in t.children && k != parts[0] ==> r.value.children[k] == t.children[k]
    decreases |parts|
  {
    if |parts| == 0 then Ok(t)
    else if parts[0] == "rs" then Place(Node(file), parts[1..], file)
    else match t
      case Node(_) => Err(Panic)
      case Branch(m) =>
        var child := if parts[0] in m then m[parts[0]] else Empty;
        match Place(child, parts[1..], file)
        case Err(e) => Err(e)
        case Ok(c) => Ok(Branch(m[parts[0] := c]))
  }

  /** One iteration of the outer loop. */
  function PlaceFile(t: Tree, file: string): Result<Tree, BuildError> {
    Place(t, Split(file, '.'), file)
  }

  /** The outer loop over the output directory. */
  function PlaceAll(t: Tree, files: seq<string>): Result<Tree, BuildError>
    decreases |files|
  {
    if |files| == 0 then Ok(t)
    else
      match PlaceFile(t, files[0])
      case Err(e) => Err(e)
      case Ok(t') => PlaceAll(t', files[1..])
  }

  /** A file named `p1. ... .pn.rs` ends up as the `Node` at path `p1 ... pn`, whenever the
      walk does not panic. */
  lemma {:induction false} PlacedAtItsPath(t: Tree, path: seq<string>, file: string)
    requires forall i :: 0 <= i < |path| ==> path[i] != "rs"
    requires Place(t, path + ["rs"], file).Ok?
    ensures Get(Place(t, path + ["rs"], file).value, path) == Some(Node(file))
    decreases |path|
  {
    if |path| > 0 {
      var m := t.children;
      var child := if path[0] in m then m[path[0]] else Empty;
      assert (path + ["rs"])[1..] == path[1..] + ["rs"];
      PlacedAtItsPath(child, path[1..], file);
    } else {
      assert path + ["rs"] == ["rs"];
    }
  }

  /** Placing into a namespace whose children are all namespaces never panics, as long as
      "rs" comes last. */
  lemma {:induction false} PlaceIntoFreshPathSucceeds(path: seq<string>, file: string)
    requires forall i :: 0 <= i < |path| ==> path[i] != "rs"
    ensures Place(Empty, path + ["rs"], file).Ok?
    decreases |path|
  {
    if |path| > 0 {
      assert (path + ["rs"])[1..] == path[1..] + ["rs"];
      PlaceIntoFreshPathSucceeds(path[1..], file);
    } else {
      assert path + ["rs"] == ["rs"];
    }
  }

  lemma SplitNames()
    ensures Split("a.rs", '.') == ["a", "rs"]
    ensures Split("a.b.rs", '.') == ["a", "b", "rs"]
  {
    assert "a.rs" == "a" + ['.'] + "rs";
    SplitPrefix("a", "rs", '.');
    SplitNoSeparator("rs", '.');
    assert "a.b.rs" == "a" + ['.'] + ("b" + ['.'] + "rs");
    SplitPrefix("a", "b" + ['.'] + "rs", '.');
    SplitPrefix("b", "rs", '.');
  }

  /** Two packages of which one is a prefix of the other, in the two directory orders. The
      shorter name first: the deeper name then has to descend from a file, and panics. */
  lemma ShorterFirstPanics()
    ensures PlaceAll(Empty, ["a.rs", "a.b.rs"]).Err?
  {
    SplitNames();
    var t1 := Branch(map["a" := Node("a.rs")]);
    assert PlaceFile(Empty, "a.rs") == Ok(t1);
    assert PlaceFile(t1, "a.b.rs").Err?;
    assert ["a.rs", "a.b.rs"][1..] == ["a.b.rs"];
  }

  /** The deeper name first: the shorter name then replaces its whole namespace. */
  lemma DeeperFirstIsDropped()
    ensures PlaceAll(Empty, ["a.b.rs", "a.rs"]) == Ok(Branch(map["a" := Node("a.rs")]))
  {
    SplitNames();
    var t1 := Branch(map["a" := Node("a.rs")]);
    var t2 := Branch(map["a" := Branch(map["b" := Node("a.b.rs")])]);
    assert PlaceFile(Empty, "a.b.rs") == Ok(t2);
    assert Place(t2.children["a"], ["rs"], "a.rs") == Ok(Node("a.rs"));
    assert t2.children["a" := Node("a.rs")] == t1.children;
    assert PlaceFile(t2, "a.rs") == Ok(t1);
    assert ["a.b.rs", "a.rs"][1..] == ["a.rs"];
  }

  // ---------------------------------------------------------------------------------------
  // Emitting the tree

  /** What `construct` writes, before the file contents are read in. */
  datatype Token = Open(name: string) | Close | Contents(file: string)

  /** The depth after reading `ts` from depth `d`, or `None` if some `Close` has no `Open`. */
  function Walk(ts: seq<Token>, d: nat): Option<nat>
    decreases |ts|
  {
    if |ts| == 0 then Some(d)
    else match ts[0]
      case Open(_) => Walk(ts[1..], d + 1)
      case Close => if d == 0 then None else Walk(ts[1..], d - 1)
      case Contents(_) => Walk(ts[1..], d)
  }

  /** Every `pub mod name {` is closed by a later `}` and every `}` closes one. */
  predicate Balanced(ts: seq<Token>) {
    Walk(ts, 0) == Some(0)
  }

  lemma {:induction false} WalkAppend(a: seq<Token>, b: seq<Token>, d: nat)
    ensures Walk(a + b, d) == match Walk(a, d) case None => None case Some(e) => Walk(b, e)
    decreases |a|
  {
    if |a| > 0 {
      assert (a + b)[1..] == a[1..] + b;
      match a[0]
      case Open(_) => WalkAppend(a[1..], b, d + 1);
      case Close => if d > 0 { WalkAppend(a[1..], b, d - 1); }
      case Contents(_) => WalkAppend(a[1..], b, d);
    } else {
      assert a + b == b;
    }
  }

  lemma {:induction false} WalkShift(ts: seq<Token>, d: nat, e: nat)
    requires Walk(ts, d) == Some(e)
    ensures Walk(ts, d + 1) == Some(e + 1)
    decreases |ts|
  {
    if |ts| > 0 {
      match ts[0]
      case Open(_) => WalkShift(ts[1..], d + 1, e);
      case Close => WalkShift(ts[1..], d - 1, e);
      case Contents(_) => WalkShift(ts[1..], d, e);
    }
  }

  lemma BalancedAppend(a: seq<Token>, b: seq<Token>)
    requires Balanced(a) && Balanced(b)
    ensures Balanced(a + b)
  {
    WalkAppend(a, b, 0);
  }

  lemma BalancedWrap(name: string, s: seq<Token>)
    requires Balanced(s)
    ensures Balanced([Open(name)] + s + [Close])
  {
    WalkShift(s, 0, 0);
    WalkAppend([Open(name)], s + [Close], 0);
    WalkAppend(s, [Close], 1);
    assert [Open(name)] + s + [Close] == [Open(name)] + (s + [Close]);
  }

  /** The names of the `pub mod` blocks open after reading `ts` from inside `st`,
      outermost first. */
  function Stack(ts: seq<Token>, st: seq<string>): seq<string>
    decreases |ts|
  {
    if |ts| == 0 then st
    else match ts[0]
      case Open(name) => Stack(ts[1..], st + [name])
      case Close => Stack(ts[1..], if |st| > 0 then st[..|st| - 1] else st)
      case Contents(_) => Stack(ts[1..], st)
  }

  /** The module path at which the next token of the output is written. */
  function Scope(written: seq<Token>): seq<string> {
    Stack(written, [])
  }

  /** The output mirrors `t`: every file's contents are written inside exactly the modules of
      the path at which `t` holds that file, and every `pub mod` opened names an entry of `t`
      at that path. */
  predicate Nested(ts: seq<Token>, t: Tree) {
    forall i :: 0 <= i < |ts| ==>
      (ts[i].Contents? ==> Get(t, Scope(ts[..i])) == Some(Node(ts[i].file))) &&
      (ts[i].Open? ==> Get(t, Scope(ts[..i]) + [ts[i].name]).Some?)
  }

  lemma {:induction false} StackAppend(a: seq<Token>, b: seq<Token>, st: seq<string>)
    ensures Stack(a + b, st) == Stack(b, Stack(a, st))
    decreases |a|
  {
    if |a| > 0 {
      assert (a + b)[1..] == a[1..] + b;
      match a[0]
      case Open(name) => StackAppend(a[1..], b, st + [name]);
      case Close => StackAppend(a[1..], b, if |st| > 0 then st[..|st| - 1] else st);
      case Contents(_) => StackAppend(a[1..], b, st);
    } else {
      assert a + b == b;
    }
  }

  /** The stack is as deep as the walk says. */
  lemma {:induction false} StackDepth(ts: seq<Token>, st: seq<string>)
    requires Walk(ts, |st|).Some?
    ensures |Stack(ts, st)| == Walk(ts, |st|).value
    decreases |ts|
  {
    if |ts| > 0 {
      match ts[0]
      case Open(name) => StackDepth(ts[1..], st + [name]);
      case Close => StackDepth(ts[1..], st[..|st| - 1]);
      case Contents(_) => StackDepth(ts[1..], st);
    }
  }

  /** A stream that never closes more than it opens leaves the enclosing modules alone. */
  lemma {:induction false} StackShift(ts: seq<Token>, p: seq<string>, st: seq<string>)
    requires Walk(ts, |st|).Some?
    ensures Stack(ts, p + st) == p + Stack(ts, st)
    decreases |ts|
  {
    if |ts| > 0 {
      match ts[0]
      case Open(name) =>
        assert p + st + [name] == p + (st + [name]);
        StackShift(ts[1..], p, st + [name]);
      case Close =>
        assert (p + st)[..|p + st| - 1] == p + st[..|st| - 1];
        StackShift(ts[1..], p, st[..|st| - 1]);
      case Contents(_) =>
        StackShift(ts[1..], p, st);
    }
  }

  /** No prefix of a balanced stream closes more than it opens. */
  lemma BalancedPrefix(ts: seq<Token>, j: nat)
    requires Balanced(ts) && j <= |ts|
    ensures Walk(ts[..j], 0).Some?
  {
    assert ts == ts[..j] + ts[j..];
    WalkAppend(ts[..j], ts[j..], 0);
  }

  lemma {:induction false} NestedWrap(k: string, sub: seq<Token>, m: map<string, Tree>)
    requires k in m && Balanced(sub) && Nested(sub, m[k])
    ensures Nested([Open(k)] + sub + [Close], Branch(m))
  {
    var w := [Open(k)] + sub + [Close];
    forall i | 0 <= i < |w|
      ensures (w[i].Contents? ==> Get(Branch(m), Scope(w[..i])) == Some(Node(w[i].file))) &&
              (w[i].Open? ==> Get(Branch(m), Scope(w[..i]) + [w[i].name]).Some?)
    {
      if i == 0 {
        assert w[..i] == [];
        assert Get(Branch(m), [k]) == Get(m[k], []);
      } else if i <= |sub| {
        var j := i - 1;
        assert w[i] == sub[j];
        ScopeInWrap(k, sub, j);
        var x := Scope(sub[..j]);
        assert Scope(w[..i]) == [k] + x;
        assert ([k] + x)[1..] == x;
        if w[i].Open? {
          assert ([k] + x + [w[i].name])[1..] == x + [w[i].name];
        }
      }
    }
  }

  lemma {:induction false} NestedAppend(a: seq<Token>, b: seq<Token>, t: Tree)
    requires Balanced(a) && Nested(a, t) && Nested(b, t)
    ensures Nested(a + b, t)
  {
    var w := a + b;
    StackDepth(a, []);
    forall i | |a| <= i < |w|
      ensures (w[i].Contents? ==> Get(t, Scope(w[..i])) == Some(Node(w[i].file))) &&
              (w[i].Open? ==> Get(t, Scope(w[..i]) + [w[i].name]).Some?)
    {
      var j := i - |a|;
      assert w[i] == b[j];
      assert w[..i] == a + b[..j];
      StackAppend(a, b[..j], []);
    }
    forall i | 0 <= i < |a|
      ensures w[i] == a[i] && w[..i] == a[..i]
    {
    }
  }

  /** Below the `pub mod k {` of a wrapped stream, everything sits under `k`. */
  lemma ScopeInWrap(k: string, sub: seq<Token>, j: nat)
    requires Balanced(sub) && j <= |sub|
    ensures Scope(([Open(k)] + sub + [Close])[..j + 1]) == [k] + Scope(sub[..j])
  {
    assert ([Open(k)] + sub + [Close])[..j + 1] == [Open(k)] + sub[..j];
    StackAppend([Open(k)], sub[..j], []);
    assert Stack([Open(k)], []) == [k] by {
      assert [Open(k)][1..] == [];
    }
    BalancedPrefix(sub, j);
    StackShift(sub[..j], [k], []);
    assert [k] + [] == [k];
  }

  /** After a balanced stream the scope is what it would be without it. */
  lemma ScopeAfterBalanced(a: seq<Token>, b: seq<Token>, j: nat)
    requires Balanced(a) && j <= |b|
    ensures Scope((a + b)[..|a| + j]) == Scope(b[..j])
  {
    assert (a + b)[..|a| + j] == a + b[..j];
    StackAppend(a, b[..j], []);
    StackDepth(a, []);
  }

  /** The module path a `pub mod` opens, or the one a file's contents are written in. */
  function PathAt(ts: seq<Token>, i: nat): seq<string>
    requires i < |ts|
  {
    if ts[i].Open? then Scope(ts[..i]) + [ts[i].name] else Scope(ts[..i])
  }

  /** No module path is opened twice, and no two files are written at one path. */
  predicate WrittenOnce(ts: seq<Token>) {
    (forall i, j :: 0 <= i < j < |ts| && ts[i].Open? && ts[j].Open? ==> PathAt(ts, i) != PathAt(ts, j)) &&
    (forall i, j :: 0 <= i < j < |ts| && ts[i].Contents? && ts[j].Contents? ==> PathAt(ts, i) != PathAt(ts, j))
  }

  /** Every module opened and every file written lies below one of `keys`. */
  predicate RootedIn(ts: seq<Token>, keys: set<string>) {
    forall i :: 0 <= i < |ts| && !ts[i].Close? ==> |PathAt(ts, i)| > 0 && PathAt(ts, i)[0] in keys
  }

  lemma PathInWrap(k: string, sub: seq<Token>, i: nat)
    requires Balanced(sub) && 1 <= i <= |sub|
    ensures PathAt([Open(k)] + sub + [Close], i) == [k] + PathAt(sub, i - 1)
  {
    var w := [Open(k)] + sub + [Close];
    assert w[i] == sub[i - 1];
    ScopeInWrap(k, sub, i - 1);
    if w[i].Open? {
      assert [k] + Scope(sub[..i - 1]) + [w[i].name] == [k] + (Scope(sub[..i - 1]) + [w[i].name]);
    }
  }

  /** Wrapping a child's stream keeps its paths distinct, all of them now below `k`. */
  lemma {:induction false} OnceWrap(k: string, sub: seq<Token>)
    requires Balanced(sub) && WrittenOnce(sub)
    ensures WrittenOnce([Open(k)] + sub + [Close])
    ensures RootedIn([Open(k)] + sub + [Close], {k})
  {
    var w := [Open(k)] + sub + [Close];
    assert PathAt(w, 0) == [k] by {
      assert w[..0] == [];
    }
    forall i | 1 <= i <= |sub|
      ensures w[i] == sub[i - 1] && PathAt(w, i) == [k] + PathAt(sub, i - 1)
    {
      PathInWrap(k, sub, i);
    }
    forall i, j | 0 <= i < j < |w| && w[i].Open? && w[j].Open?
      ensures PathAt(w, i) != PathAt(w, j)
    {
      assert j <= |sub|;
      if i == 0 {
        assert |PathAt(w, j)| == 1 + |PathAt(sub, j - 1)| >= 2;
      } else {
        assert PathAt(sub, i - 1) != PathAt(sub, j - 1);
        assert PathAt(w, i)[1..] == PathAt(sub, i - 1);
        assert PathAt(w, j)[1..] == PathAt(sub, j - 1);
      }
    }
    forall i, j | 0 <= i < j < |w| && w[i].Contents? && w[j].Contents?
      ensures PathAt(w, i) != PathAt(w, j)
    {
      assert 1 <= i && j <= |sub|;
      assert PathAt(sub, i - 1) != PathAt(sub, j - 1);
      assert PathAt(w, i)[1..] == PathAt(sub, i - 1);
      assert PathAt(w, j)[1..] == PathAt(sub, j - 1);
    }
  }

  /** The paths of a stream placed after a balanced one are the paths it has alone. */
  lemma PathsOfAppend(a: seq<Token>, b: seq<Token>, i: nat)
    requires Balanced(a) && i < |a + b|
    ensures i < |a| ==> (a + b)[i] == a[i] && PathAt(a + b, i) == PathAt(a, i)
    ensures |a| <= i ==> (a + b)[i] == b[i - |a|] && PathAt(a + b, i) == PathAt(b, i - |a|)
  {
    if i < |a| {
      assert (a + b)[..i] == a[..i];
    } else {
      ScopeAfterBalanced(a, b, i - |a|);
    }
  }

  /** Two positions of `a + b` whose paths start in disjoint key sets have different paths. */
  lemma PathsApart(a: seq<Token>, b: seq<Token>, ka: set<string>, kb: set<string>, i: nat, j: nat)
    requires Balanced(a) && RootedIn(a, ka) && RootedIn(b, kb) && ka !! kb
    requires i < |a| <= j < |a + b| && !a[i].Close? && !b[j - |a|].Close?
    ensures PathAt(a + b, i) != PathAt(a + b, j)
  {
    PathsOfAppend(a, b, i);
    PathsOfAppend(a, b, j);
    assert PathAt(a, i)[0] in ka && PathAt(b, j - |a|)[0] in kb;
  }

  /** Streams for siblings with different names, one after another, keep all paths distinct. */
  lemma {:induction false} OnceAppend(a: seq<Token>, b: seq<Token>, ka: set<string>, kb: set<string>)
    requires Balanced(a) && WrittenOnce(a) && WrittenOnce(b)
    requires RootedIn(a, ka) && RootedIn(b, kb) && ka !! kb
    ensures WrittenOnce(a + b)
    ensures RootedIn(a + b, ka + kb)
  {
    var w := a + b;
    forall i, j | 0 <= i < j < |w| && w[i].Open? && w[j].Open?
      ensures PathAt(w, i) != PathAt(w, j)
    {
      PathsOfAppend(a, b, i);
      PathsOfAppend(a, b, j);
      if i < |a| <= j {
        PathsApart(a, b, ka, kb, i, j);
      }
    }
    forall i, j | 0 <= i < j < |w| && w[i].Contents? && w[j].Contents?
      ensures PathAt(w, i) != PathAt(w, j)
    {
      PathsOfAppend(a, b, i);
      PathsOfAppend(a, b, j);
      if i < |a| <= j {
        PathsApart(a, b, ka, kb, i, j);
      }
    }
    forall i | 0 <= i < |w| && !w[i].Close?
      ensures |PathAt(w, i)| > 0 && PathAt(w, i)[0] in ka + kb
    {
      PathsOfAppend(a, b, i);
    }
  }

  /** Some `pub mod` of the stream opens the module path `p`. */
  predicate OpenedAt(ts: seq<Token>, p: seq<string>) {
    exists i :: 0 <= i < |ts| && ts[i].Open? && PathAt(ts, i) == p
  }

  /** Some file's contents are written at the module path `p`. */
  predicate WrittenAt(ts: seq<Token>, p: seq<string>) {
    exists i :: 0 <= i < |ts| && ts[i].Contents? && PathAt(ts, i) == p
  }

  /** Every entry of `t` below one of `keys` is opened as a module, and a file is also written
      there. */
  ghost predicate CoversUnder(ts: seq<Token>, t: Tree, keys: set<string>) {
    forall p :: |p| > 0 && p[0] in keys && Get(t, p).Some? ==>
      OpenedAt(ts, p) && (Get(t, p).value.Node? ==> WrittenAt(ts, p))
  }

  /** Every entry of `t` other than the root is opened as a module (a file's entry too, as
      its `pub mod`), and every file of `t` is written at its own path. */
  ghost predicate Covers(ts: seq<Token>, t: Tree) {
    (forall p :: |p| > 0 && Get(t, p).Some? ==> OpenedAt(ts, p)) &&
    (forall p :: Get(t, p).Some? && Get(t, p).value.Node? ==> WrittenAt(ts, p))
  }

  lemma OpenedWrapHead(k: string, sub: seq<Token>)
    ensures OpenedAt([Open(k)] + sub + [Close], [k])
  {
    var w := [Open(k)] + sub + [Close];
    assert w[..0] == [];
    assert w[0].Open? && PathAt(w, 0) == [k];
  }

  lemma OpenedInWrap(k: string, sub: seq<Token>, q: seq<string>)
    requires Balanced(sub) && OpenedAt(sub, q)
    ensures OpenedAt([Open(k)] + sub + [Close], [k] + q)
  {
    var w := [Open(k)] + sub + [Close];
    var i :| 0 <= i < |sub| && sub[i].Open? && PathAt(sub, i) == q;
    PathInWrap(k, sub, i + 1);
    assert w[i + 1].Open? && PathAt(w, i + 1) == [k] + q;
  }

  lemma WrittenInWrap(k: string, sub: seq<Token>, q: seq<string>)
    requires Balanced(sub) && WrittenAt(sub, q)
    ensures WrittenAt([Open(k)] + sub + [Close], [k] + q)
  {
    var w := [Open(k)] + sub + [Close];
    var i :| 0 <= i < |sub| && sub[i].Contents? && PathAt(sub, i) == q;
    PathInWrap(k, sub, i + 1);
    assert w[i + 1].Contents? && PathAt(w, i + 1) == [k] + q;
  }

  /** Wrapping a child's output in `pub mod k {` ... `}` opens `k` and everything the child's
      output opens and writes, one level down. */
  lemma {:induction false} CoversWrap(k: string, sub: seq<Token>, m: map<string, Tree>)
    requires k in m && Balanced(sub) && Covers(sub, m[k])
    ensures CoversUnder([Open(k)] + sub + [Close], Branch(m), {k})
  {
    forall p | |p| > 0 && p[0] in {k} && Get(Branch(m), p).Some?
      ensures OpenedAt([Open(k)] + sub + [Close], p)
      ensures Get(Branch(m), p).value.Node? ==> WrittenAt([Open(k)] + sub + [Close], p)
    {
      var q := p[1..];
      assert p == [k] + q;
      assert Get(Branch(m), p) == Get(m[k], q);
      if |q| == 0 {
        OpenedWrapHead(k, sub);
      } else {
        OpenedInWrap(k, sub, q);
      }
      if Get(m[k], q).value.Node? {
        WrittenInWrap(k, sub, q);
      }
    }
  }

  lemma OpenedInAppend(a: seq<Token>, b: seq<Token>, p: seq<string>)
    requires Balanced(a) && (OpenedAt(a, p) || OpenedAt(b, p))
    ensures OpenedAt(a + b, p)
  {
    if OpenedAt(a, p) {
      var i :| 0 <= i < |a| && a[i].Open? && PathAt(a, i) == p;
      PathsOfAppend(a, b, i);
    } else {
      var i :| 0 <= i < |b| && b[i].Open? && PathAt(b, i) == p;
      PathsOfAppend(a, b, |a| + i);
    }
  }

  lemma WrittenInAppend(a: seq<Token>, b: seq<Token>, p: seq<string>)
    requires Balanced(a) && (WrittenAt(a, p) || WrittenAt(b, p))
    ensures WrittenAt(a + b, p)
  {
    if WrittenAt(a, p) {
      var i :| 0 <= i < |a| && a[i].Contents? && PathAt(a, i) == p;
      PathsOfAppend(a, b, i);
    } else {
      var i :| 0 <= i < |b| && b[i].Contents? && PathAt(b, i) == p;
      PathsOfAppend(a, b, |a| + i);
    }
  }

  /** Outputs written one after another cover what each covers. */
  lemma {:induction false} CoversAppend(a: seq<Token>, b: seq<Token>, t: Tree, ka: set<string>, kb: set<string>)
    requires Balanced(a) && CoversUnder(a, t, ka) && CoversUnder(b, t, kb)
    ensures CoversUnder(a + b, t, ka + kb)
  {
    forall p | |p| > 0 && p[0] in ka + kb && Get(t, p).Some?
      ensures OpenedAt(a + b, p) && (Get(t, p).value.Node? ==> WrittenAt(a + b, p))
    {
      OpenedInAppend(a, b, p);
      if Get(t, p).value.Node? {
        WrittenInAppend(a, b, p);
      }
    }
  }

  /** Covering the entries below every child of a namespace covers the namespace. */
  lemma CoversBranch(ts: seq<Token>, m: map<string, Tree>)
    requires CoversUnder(ts, Branch(m), m.Keys)
    ensures Covers(ts, Branch(m))
  {
  }

  /** The files whose contents the token stream pulls in. */
  function Files(ts: seq<Token>): set<string> {
    set t | t in ts && t.Contents? :: t.file
  }

  /** The files at the leaves of a tree. */
  function Leaves(t: Tree): set<string> {
    match t
    case Node(f) => {f}
    case Branch(m) => set k, f | k in m && f in Leaves(m[k]) :: f
  }

  /** The leaves below the children named in `keys`. */
  function LeavesUnder(m: map<string, Tree>, keys: set<string>): set<string>
    requires keys <= m.Keys
  {
    set k, f | k in keys && f in Leaves(m[k]) :: f
  }

  /** One step of `construct` on a namespace: the output so far, for the children in `done`,
      followed by child `k` wrapped in its `pub mod`, nests properly and holds the files of
      `done` and `k`, each at its path. */
  lemma AppendChild(ts: seq<Token>, k: string, sub: seq<Token>, m: map<string, Tree>, done: set<string>)
    requires k in m && done <= m.Keys
    requires Balanced(ts) && Files(ts) == LeavesUnder(m, done) && Nested(ts, Branch(m))
    requires Balanced(sub) && Files(sub) == Leaves(m[k]) && Nested(sub, m[k])
    ensures var w := ts + ([Open(k)] + sub + [Close]);
            Balanced(w) && Files(w) == LeavesUnder(m, done + {k}) && Nested(w, Branch(m))
  {
    var c := [Open(k)] + sub + [Close];
    BalancedWrap(k, sub);
    BalancedAppend(ts, c);
    NestedWrap(k, sub, m);
    NestedAppend(ts, c, Branch(m));
    FilesOfChild(ts, k, sub, m, done);
  }

  lemma FilesOfChild(ts: seq<Token>, k: string, sub: seq<Token>, m: map<string, Tree>, done: set<string>)
    requires k in m && done <= m.Keys
    requires Files(ts) == LeavesUnder(m, done) && Files(sub) == Leaves(m[k])
    ensures Files(ts + ([Open(k)] + sub + [Close])) == LeavesUnder(m, done + {k})
  {
    assert Files(ts + ([Open(k)] + sub + [Close])) == Files(ts) + Files(sub);
    assert LeavesUnder(m, done + {k}) == LeavesUnder(m, done) + Leaves(m[k]);
  }

  /** The same step opens and writes every path at most once, and covers the entries below
      `done` and `k`. */
  lemma AppendChildOnce(ts: seq<Token>, k: string, sub: seq<Token>, m: map<string, Tree>, done: set<string>)
    requires k in m && k !in done
    requires Balanced(ts) && WrittenOnce(ts) && RootedIn(ts, done) && CoversUnder(ts, Branch(m), done)
    requires Balanced(sub) && WrittenOnce(sub) && Covers(sub, m[k])
    ensures var w := ts + ([Open(k)] + sub + [Close]);
            WrittenOnce(w) && RootedIn(w, done + {k}) && CoversUnder(w, Branch(m), done + {k})
  {
    var c := [Open(k)] + sub + [Close];
    OnceWrap(k, sub);
    OnceAppend(ts, c, done, {k});
    CoversWrap(k, sub, m);
    CoversAppend(ts, c, Branch(m), done, {k});
  }

  /** `construct`: a file becomes its contents; a namespace becomes, for each child in the
      map's iteration order, `pub mod name {`, the child, `}`. The output nests properly and
      includes exactly the files of the tree, each inside the modules of its path; it opens
      every entry of the tree as a module, namespaces without files included, and opens every
      module and writes every file once. */
  method Construct(t: Tree) returns (ts: seq<Token>)
    ensures Balanced(ts)
    ensures Files(ts) == Leaves(t)
    ensures Nested(ts, t)
    ensures WrittenOnce(ts)
    ensures Covers(ts, t)
    decreases t
  {
    match t
    case Node(f) =>
      ts := [Contents(f)];
      assert Files(ts) == {f};
      assert ts[..0] == [];
      assert PathAt(ts, 0) == [];
    case Branch(m) =>
      ts := [];
      var rest := m.Keys;
      while rest != {}
        invariant rest <= m.Keys
        invariant Balanced(ts)
        invariant Files(ts) == LeavesUnder(m, m.Keys - rest)
        invariant Nested(ts, t)
        invariant WrittenOnce(ts) && RootedIn(ts, m.Keys - rest)
        invariant CoversUnder(ts, t, m.Keys - rest)
        decreases rest
      {
        var k :| k in rest;
        var sub := Construct(m[k]);
        AppendChild(ts, k, sub, m, m.Keys - rest);
        AppendChildOnce(ts, k, sub, m, m.Keys - rest);
        assert m.Keys - (rest - {k}) == (m.Keys - rest) + {k};
        ts := ts + ([Open(k)] + sub + [Close]);
        rest := rest - {k};
      }
      assert m.Keys - rest == m.Keys;
      CoversBranch(ts, m);
  }

  /** The text of a token stream. */
  function Render(ts: seq<Token>, read: string -> string): string
    decreases |ts|
  {
    if |ts| == 0 then ""
    else
      var head := match ts[0]
        case Open(name) => "pub mod " + name + " {"
        case Close => "}"
        case Contents(f) => read(f);
      head + Render(ts[1..], read)
  }

  /** `place_in_src` from the directory listing to the text of `src/generated.rs`. */
  method PlaceInSrc(files: seq<string>, read: string -> string) returns (r: Result<string, BuildError>)
    ensures r.Ok? <==> PlaceAll(Empty, files).Ok?
    ensures r.Ok? ==> exists ts :: Nested(ts, PlaceAll(Empty, files).value) && Balanced(ts) && WrittenOnce(ts) &&
                                   Covers(ts, PlaceAll(Empty, files).value) &&
                                   Files(ts) == Leaves(PlaceAll(Empty, files).value) &&
                                   r.value == Render(ts, read)
  {
    match PlaceAll(Empty, files)
    case Err(e) =>
      r := Err(e);
    case Ok(tree) =>
      var ts := Construct(tree);
      r := Ok(Render(ts, read));
  }
}

=== FILE: Spreadsheets.dfy ===
/** The Google Sheets v4 REST wrapper: A1-notation ranges, the option enums and their wire
    strings, and the URL, query and body each call sends. The HTTP exchange itself is not
    modelled; `HandleResponse` models what each call does with the reply. */
module Spreadsheets {
  import opened Wrappers
  import opened Text
  import Json
  import Metadata

  const SheetsBase: string := "https://sheets.googleapis.com/v4/spreadsheets/"

  // ---------------------------------------------------------------------------------------
  // Ranges

  datatype Range = Range(sheet: string, start: string, end: Option<string>)

  /** `Range`'s `Display`: `'sheet'!START` or `'sheet'!START:END`; only the cells are
      upper-cased, the sheet name is quoted verbatim. */
  function RangeToString(r: Range): (s: string)
    ensures |s| >= |r.sheet| + 3 && s[..|r.sheet| + 3] == "'" + r.sheet + "'!"
    ensures r.end.None? ==> s[|r.sheet| + 3..] == AsciiUpper(r.start)
    ensures r.end.Some? ==> s[|r.sheet| + 3..] == AsciiUpper(r.start) + ":" + AsciiUpper(r.end.value)
  {
    match r.end
    case Some(e) => "'" + r.sheet + "'!" + AsciiUpper(r.start) + ":" + AsciiUpper(e)
    case None => "'" + r.sheet + "'!" + AsciiUpper(r.start)
  }

  /** The range with its cell references upper-cased, as `Display` writes them. */
  function Normalised(r: Range): Range {
    Range(r.sheet, AsciiUpper(r.start),
          match r.end case Some(e) => Some(AsciiUpper(e)) case None => None)
  }

  /** Reads a rendered range back: a quote, the sheet name, a quote, '!', then one cell or
      two cells separated by ':'. */
  function ParseRange(s: string): Option<Range> {
    if |s| == 0 || s[0] != '\'' then None
    else
      var parts := Split(s[1..], '\'');
      if |parts| != 2 || |parts[1]| == 0 || parts[1][0] != '!' then None
      else ParseCells(parts[0], parts[1][1..])
  }

  /** The part after `'sheet'!`: one cell, or two separated by ':'. */
  function ParseCells(sheet: string, cells: string): Option<Range> {
    var parts := Split(cells, ':');
    if |parts| == 1 then Some(Range(sheet, parts[0], None))
    else if |parts| == 2 then Some(Range(sheet, parts[0], Some(parts[1])))
    else None
  }

  /** A cell reference that neither a quote nor a colon can confuse. */
  predicate PlainCell(c: string) {
    '\'' !in c && ':' !in c
  }

  lemma UpperKeepsAbsent(x: string, c: char)
    requires c !in x && !('A' <= c <= 'Z')
    ensures c !in AsciiUpper(x)
  {
    forall i | 0 <= i < |x| ensures AsciiUpper(x)[i] != c {
      assert AsciiUpper(x)[i] == UpperChar(x[i]);
    }
  }

  lemma SheetPart(sheet: string, rest: string)
    requires '\'' !in sheet && '\'' !in rest && |rest| > 0 && rest[0] == '!'
    ensures ParseRange(['\''] + sheet + ['\''] + rest) == ParseCells(sheet, rest[1..])
  {
    var s := ['\''] + sheet + ['\''] + rest;
    assert s[1..] == sheet + ['\''] + rest;
    SplitPrefix(sheet, rest, '\'');
    SplitNoSeparator(rest, '\'');
  }

  lemma CellsPart(sheet: string, start: string, end: Option<string>)
    requires ':' !in start && (end.Some? ==> ':' !in end.value)
    ensures ParseCells(sheet, start + (if end.Some? then ":" + end.value else "")) == Some(Range(sheet, start, end))
  {
    if end.Some? {
      var e := end.value;
      var cells := start + ":" + e;
      assert cells == start + [':'] + e;
      SplitPrefix(start, e, ':');
      SplitNoSeparator(e, ':');
      assert Split(cells, ':') == [start, e];
      assert start + (":" + e) == cells;
    } else {
      assert start + "" == start;
      SplitNoSeparator(start, ':');
    }
  }

  /** Rendering then parsing gives back the range with upper-cased cells, so two ranges
      render alike exactly when they agree on the sheet and on the upper-cased cells. */
  lemma {:induction false} RangeRoundTrip(r: Range)
    requires '\'' !in r.sheet && PlainCell(r.start)
    requires r.end.Some? ==> PlainCell(r.end.value)
    ensures ParseRange(RangeToString(r)) == Some(Normalised(r))
  {
    var n := Normalised(r);
    UpperKeepsAbsent(r.start, '\'');
    UpperKeepsAbsent(r.start, ':');
    if r.end.Some? {
      UpperKeepsAbsent(r.end.value, '\'');
      UpperKeepsAbsent(r.end.value, ':');
    }
    var cells := n.start + (if n.end.Some? then ":" + n.end.value else "");
    var rest := "!" + cells;
    assert RangeToString(r) == ['\''] + r.sheet + ['\''] + rest;
    assert '\'' !in rest;
    SheetPart(r.sheet, rest);
    assert rest[1..] == cells;
    CellsPart(r.sheet, n.start, n.end);
  }

  /** Upper-casing the cells first does not change the rendering, so a range whose cells are
      already upper-case renders them unchanged. */
  lemma RenderingIgnoresCellCase(r: Range)
    ensures RangeToString(Normalised(r)) == RangeToString(r)
  {
    AsciiUpperNormalises(r.start);
    if r.end.Some? {
      AsciiUpperNormalises(r.end.value);
    }
  }

  // ---------------------------------------------------------------------------------------
  // Option enums: `Display` strings, their inverse, `Serialize` and `Default`

  /** Indicates which dimension an operation should apply to. */
  datatype Dimension = Rows | Columns {
    function ToString(): (s: string)
      ensures DimensionFromString(s) == Some(this)
    {
      match this
      case Rows => "ROWS"
      case Columns => "COLUMNS"
    }
  }

  function DimensionFromString(s: string): Option<Dimension> {
    if s == "ROWS" then Some(Rows)
    else if s == "COLUMNS" then Some(Columns)
    else None
  }

  lemma DimensionFromStringInverse(s: string, d: Dimension)
    requires DimensionFromString(s) == Some(d)
    ensures d.ToString() == s
  {
  }

  /** Determines how values should be rendered in the output. */
  datatype ValueRenderOption = FormattedValue | UnformattedValue | Formula {
    function ToString(): (s: string)
      ensures ValueRenderOptionFromString(s) == Some(this)
    {
      match this
      case FormattedValue => "FORMATTED_VALUE"
      case UnformattedValue => "UNFORMATTED_VALUE"
      case Formula => "FORMULA"
    }

    /** `Serialize`: the `Display` string as a JSON string. */
    function Serialize(): (j: Json.Json)
      ensures j.String? && ValueRenderOptionFromString(j.s) == Some(this)
    {
      Json.String(ToString())
    }
  }

  function ValueRenderOptionFromString(s: string): Option<ValueRenderOption> {
    if s == "FORMATTED_VALUE" then Some(FormattedValue)
    else if s == "UNFORMATTED_VALUE" then Some(UnformattedValue)
    else if s == "FORMULA" then Some(Formula)
    else None
  }

  lemma ValueRenderOptionFromStringInverse(s: string, v: ValueRenderOption)
    requires ValueRenderOptionFromString(s) == Some(v)
    ensures v.ToString() == s
  {
  }

  /** Determines how dates should be rendered in the output. */
  datatype DateTimeRenderOption = SerialNumber | FormattedString {
    function ToString(): (s: string)
      ensures DateTimeRenderOptionFromString(s) == Some(this)
    {
      match this
      case SerialNumber => "SERIAL_NUMBER"
      case FormattedString => "FORMATTED_STRING"
    }

    function Serialize(): (j: Json.Json)
      ensures j.String? && DateTimeRenderOptionFromString(j.s) == Some(this)
    {
      Json.String(ToString())
    }
  }

  function DateTimeRenderOptionFromString(s: string): Option<DateTimeRenderOption> {
    if s == "SERIAL_NUMBER" then Some(SerialNumber)
    else if s == "FORMATTED_STRING" then Some(FormattedString)
    else None
  }

  lemma DateTimeRenderOptionFromStringInverse(s: string, v: DateTimeRenderOption)
    requires DateTimeRenderOptionFromString(s) == Some(v)
    ensures v.ToString() == s
  {
  }

  /** Determines how input data should be interpreted. */
  datatype ValueInputOption = Raw | UserEntered {
    function ToString(): (s: string)
      ensures ValueInputOptionFromString(s) == Some(this)
    {
      match this
      case Raw => "RAW"
      case UserEntered => "USER_ENTERED"
    }

    function Serialize(): (j: Json.Json)
      ensures j.String? && ValueInputOptionFromString(j.s) == Some(this)
    {
      Json.String(ToString())
    }
  }

  function ValueInputOptionFromString(s: string): Option<ValueInputOption> {
    if s == "RAW" then Some(Raw)
    else if s == "USER_ENTERED" then Some(UserEntered)
    else None
  }

  lemma ValueInputOptionFromStringInverse(s: string, v: ValueInputOption)
    requires ValueInputOptionFromString(s) == Some(v)
    ensures v.ToString() == s
  {
  }

  /** Determines how existing data is changed when new data is input. */
  datatype InsertDataOption = Overwrite | InsertRows {
    function ToString(): (s: string)
      ensures InsertDataOptionFromString(s) == Some(this)
    {
      match this
      case Overwrite => "OVERWRITE"
      case InsertRows => "INSERT_ROWS"
    }
  }

  function InsertDataOptionFromString(s: string): Option<InsertDataOption> {
    if s == "OVERWRITE" then Some(Overwrite)
    else if s == "INSERT_ROWS" then Some(InsertRows)
    else None
  }

  lemma InsertDataOptionFromStringInverse(s: string, v: InsertDataOption)
    requires InsertDataOptionFromString(s) == Some(v)
    ensures v.ToString() == s
  {
  }

  /** The `Default` impls. */
  const DefaultDimension: Dimension := Rows
  const DefaultValueRenderOption: ValueRenderOption := FormattedValue
  const DefaultDateTimeRenderOption: DateTimeRenderOption := FormattedString
  const DefaultValueInputOption: ValueInputOption := UserEntered
  const DefaultInsertDataOption: InsertDataOption := Overwrite

  /** What a missing option is sent as. */
  lemma DefaultWireStrings()
    ensures DefaultDimension.ToString() == "ROWS"
    ensures DefaultValueRenderOption.ToString() == "FORMATTED_VALUE"
    ensures DefaultDateTimeRenderOption.ToString() == "FORMATTED_STRING"
    ensures DefaultValueInputOption.ToString() == "USER_ENTERED"
    ensures DefaultInsertDataOption.ToString() == "OVERWRITE"
  {
  }

  function BoolFromString(s: string): Option<bool> {
    if s == "true" then Some(true) else if s == "false" then Some(false) else None
  }

  // ---------------------------------------------------------------------------------------
  // Requests

  /** `(name, value)` pairs in the order they are appended to the URL. */
  type Query = seq<(string, string)>

  /** A URL built by `Url::parse_with_params`: the address and its query pairs (percent-encoding
      is not modelled). */
  datatype Url = Url(address: string, query: Query)

  datatype HttpMethod = Get | Put | Post

  /** Data within a range of the spreadsheet. */
  datatype ValueRange = ValueRange(
    range: Option<string>,
    values: Option<seq<seq<Option<string>>>>,
    majorDimension: Option<string>)

  datatype BatchUpdateParams = BatchUpdateParams(
    spreadsheetId: string,
    valueInputOption: Option<ValueInputOption>,
    data: seq<ValueRange>,
    includeValuesInResponse: Option<bool>,
    responseValueRenderOption: Option<ValueRenderOption>,
    responseDateTimeRenderOption: Option<DateTimeRenderOption>)

  /** The JSON body of a request, before serialisation. */
  datatype Body = NoBody | Values(values: ValueRange) | BatchUpdate(params: BatchUpdateParams)

  /** An HTTP request; `authorization` is the header `bearer_auth` sets. */
  datatype HttpRequest = HttpRequest(verb: HttpMethod, url: Url, body: Body, authorization: string)

  datatype GetParams = GetParams(
    spreadsheetId: string,
    range: Range,
    majorDimension: Option<Dimension>,
    valueRenderOption: Option<ValueRenderOption>,
    dateTimeRenderOption: Option<DateTimeRenderOption>)

  datatype UpdateParams = UpdateParams(
    spreadsheetId: string,
    range: Range,
    values: ValueRange,
    valueInputOption: Option<ValueInputOption>,
    includeValuesInResponse: Option<bool>,
    responseValueRenderOption: Option<ValueRenderOption>,
    responseDateTimeRenderOption: Option<DateTimeRenderOption>)

  datatype AppendParams = AppendParams(
    spreadsheetId: string,
    range: Range,
    values: ValueRange,
    valueInputOption: Option<ValueInputOption>,
    insertDataOption: Option<InsertDataOption>,
    includeValuesInResponse: Option<bool>,
    responseValueRenderOption: Option<ValueRenderOption>,
    responseDateTimeRenderOption: Option<DateTimeRenderOption>)

  datatype BatchGetParams = BatchGetParams(
    spreadsheetId: string,
    ranges: seq<Range>,
    majorDimension: Option<Dimension>,
    valueRenderOption: Option<ValueRenderOption>,
    dateTimeRenderOption: Option<DateTimeRenderOption>)

  /** Decodes the query of a `get`: exactly majorDimension, valueRenderOption,
      dateTimeRenderOption and alt=json, in that order. */
  function DecodeGetQuery(q: Query): Option<(Dimension, ValueRenderOption, DateTimeRenderOption)> {
    if |q| != 4 || q[0].0 != "majorDimension" || q[1].0 != "valueRenderOption" ||
       q[2].0 != "dateTimeRenderOption" || q[3] != ("alt", "json") then None
    else
      match (DimensionFromString(q[0].1), ValueRenderOptionFromString(q[1].1),
             DateTimeRenderOptionFromString(q[2].1))
      case (Some(d), Some(v), Some(t)) => Some((d, v, t))
      case _ => None
  }

  /** `get`: GET `.../{id}/values/{range}`; missing options are sent as their defaults. */
  function GetRequest(p: GetParams, token: string): (r: HttpRequest)
    ensures r.verb == Get && r.body == NoBody
    ensures r.url.address == SheetsBase + p.spreadsheetId + "/values/" + RangeToString(p.range)
    ensures DecodeGetQuery(r.url.query) ==
            Some((p.majorDimension.UnwrapOr(DefaultDimension),
                  p.valueRenderOption.UnwrapOr(DefaultValueRenderOption),
                  p.dateTimeRenderOption.UnwrapOr(DefaultDateTimeRenderOption)))
    ensures Metadata.BearerToken(r.authorization) == Some(token)
  {
    var query := [
      ("majorDimension", p.majorDimension.UnwrapOr(DefaultDimension).ToString()),
      ("valueRenderOption", p.valueRenderOption.UnwrapOr(DefaultValueRenderOption).ToString()),
      ("dateTimeRenderOption", p.dateTimeRenderOption.UnwrapOr(DefaultDateTimeRenderOption).ToString()),
      ("alt", "json")
    ];
    HttpRequest(Get, Url(SheetsBase + p.spreadsheetId + "/values/" + RangeToString(p.range), query),
                NoBody, Metadata.Bearer(token))
  }

  /** Decodes the query of an `update`: valueInputOption, includeValuesInResponse,
      responseDateTimeRenderOption, responseValueRenderOption and alt=json, in that order. */
  function DecodeUpdateQuery(q: Query)
    : Option<(ValueInputOption, bool, DateTimeRenderOption, ValueRenderOption)>
  {
    if |q| != 5 || q[0].0 != "valueInputOption" || q[1].0 != "includeValuesInResponse" ||
       q[2].0 != "responseDateTimeRenderOption" || q[3].0 != "responseValueRenderOption" ||
       q[4] != ("alt", "json") then None
    else
      match (ValueInputOptionFromString(q[0].1), BoolFromString(q[1].1),
             DateTimeRenderOptionFromString(q[2].1), ValueRenderOptionFromString(q[3].1))
      case (Some(i), Some(b), Some(t), Some(v)) => Some((i, b, t, v))
      case _ => None
  }

  /** `update`: PUT `.../{id}/values/{range}` with the values as the body. A missing
      include flag is sent as "false" and a missing date-time option as FORMATTED_STRING. */
  function UpdateRequest(p: UpdateParams, token: string): (r: HttpRequest)
    ensures r.verb == Put && r.body == Values(p.values)
    ensures r.url.address == SheetsBase + p.spreadsheetId + "/values/" + RangeToString(p.range)
    ensures DecodeUpdateQuery(r.url.query) ==
            Some((p.valueInputOption.UnwrapOr(DefaultValueInputOption),
                  p.includeValuesInResponse.UnwrapOr(false),
                  p.responseDateTimeRenderOption.UnwrapOr(DefaultDateTimeRenderOption),
                  p.responseValueRenderOption.UnwrapOr(DefaultValueRenderOption)))
    ensures Metadata.BearerToken(r.authorization) == Some(token)
  {
    var query := [
      ("valueInputOption", p.valueInputOption.UnwrapOr(DefaultValueInputOption).ToString()),
      ("includeValuesInResponse", BoolToString(p.includeValuesInResponse.UnwrapOr(false))),
      ("responseDateTimeRenderOption",
        p.responseDateTimeRenderOption.UnwrapOr(DefaultDateTimeRenderOption).ToString()),
      ("responseValueRenderOption",
        p.responseValueRenderOption.UnwrapOr(DefaultValueRenderOption).ToString()),
      ("alt", "json")
    ];
    HttpRequest(Put, Url(SheetsBase + p.spreadsheetId + "/values/" + RangeToString(p.range), query),
                Values(p.values), Metadata.Bearer(token))
  }

  /** The doc comment of `UpdateParams` promises SERIAL_NUMBER as the default response
      date-time option; the request carries FORMATTED_STRING. */
  lemma UpdateDateTimeDefaultIsFormattedString(p: UpdateParams, token: string)
    requires p.responseDateTimeRenderOption.None?
    ensures UpdateRequest(p, token).url.query[2] == ("responseDateTimeRenderOption", "FORMATTED_STRING")
    ensures UpdateRequest(p, token).url.query[2].1 != SerialNumber.ToString()
  {
  }

  function DecodeAppendQuery(q: Query)
    : Option<(ValueInputOption, bool, InsertDataOption, DateTimeRenderOption, ValueRenderOption)>
  {
    if |q| != 6 || q[0].0 != "valueInputOption" || q[1].0 != "includeValuesInResponse" ||
       q[2].0 != "insertDataOption" || q[3].0 != "responseDateTimeRenderOption" ||
       q[4].0 != "responseValueRenderOption" || q[5] != ("alt", "json") then None
    else
      match (ValueInputOptionFromString(q[0].1), BoolFromString(q[1].1),
             InsertDataOptionFromString(q[2].1), DateTimeRenderOptionFromString(q[3].1),
             ValueRenderOptionFromString(q[4].1))
      case (Some(i), Some(b), Some(o), Some(t), Some(v)) => Some((i, b, o, t, v))
      case _ => None
  }

  /** `append`: POST `.../{id}/values/{range}:append` with the values as the body. */
  function AppendRequest(p: AppendParams, token: string): (r: HttpRequest)
    ensures r.verb == Post && r.body == Values(p.values)
    ensures r.url.address == SheetsBase + p.spreadsheetId + "/values/" + RangeToString(p.range) + ":append"
    ensures DecodeAppendQuery(r.url.query) ==
            Some((p.valueInputOption.UnwrapOr(DefaultValueInputOption),
                  p.includeValuesInResponse.UnwrapOr(false),
                  p.insertDataOption.UnwrapOr(DefaultInsertDataOption),
                  p.responseDateTimeRenderOption.UnwrapOr(DefaultDateTimeRenderOption),
                  p.responseValueRenderOption.UnwrapOr(DefaultValueRenderOption)))
    ensures Metadata.BearerToken(r.authorization) == Some(token)
  {
    var query := [
      ("valueInputOption", p.valueInputOption.UnwrapOr(DefaultValueInputOption).ToString()),
      ("includeValuesInResponse", BoolToString(p.includeValuesInResponse.UnwrapOr(false))),
      ("insertDataOption", p.insertDataOption.UnwrapOr(DefaultInsertDataOption).ToString()),
      ("responseDateTimeRenderOption",
        p.responseDateTimeRenderOption.UnwrapOr(DefaultDateTimeRenderOption).ToString()),
      ("responseValueRenderOption",
        p.responseValueRenderOption.UnwrapOr(DefaultValueRenderOption).ToString()),
      ("alt", "json")
    ];
    HttpRequest(Post,
                Url(SheetsBase + p.spreadsheetId + "/values/" + RangeToString(p.range) + ":append", query),
                Values(p.values), Metadata.Bearer(token))
  }

  /** Decodes the query of a `batch_get`: any number of `ranges` pairs, then majorDimension,
      dateTimeRenderOption, valueRenderOption and alt=json, in that order. */
  function DecodeBatchGetQuery(q: Query)
    : Option<(seq<string>, Dimension, DateTimeRenderOption, ValueRenderOption)>
  {
    if |q| < 4 then None
    else
      var n := |q| - 4;
      if (exists i :: 0 <= i < n && q[i].0 != "ranges") ||
         q[n].0 != "majorDimension" || q[n + 1].0 != "dateTimeRenderOption" ||
         q[n + 2].0 != "valueRenderOption" || q[n + 3] != ("alt", "json") then None
      else
        match (DimensionFromString(q[n].1), DateTimeRenderOptionFromString(q[n + 1].1),
               ValueRenderOptionFromString(q[n + 2].1))
        case (Some(d), Some(t), Some(v)) => Some((seq(n, i requires 0 <= i < n => q[i].1), d, t, v))
        case _ => None
  }

  /** The query `batch_get` sends for the given rendered ranges and options. */
  function BatchGetQuery(rendered: seq<string>, d: Dimension, t: DateTimeRenderOption,
                         v: ValueRenderOption): Query
  {
    seq(|rendered|, i requires 0 <= i < |rendered| => ("ranges", rendered[i])) +
    [("majorDimension", d.ToString()), ("dateTimeRenderOption", t.ToString()),
     ("valueRenderOption", v.ToString()), ("alt", "json")]
  }

  /** The batch query decodes back to the ranges, in order, and the three options. */
  lemma BatchGetQueryRoundTrip(rendered: seq<string>, d: Dimension, t: DateTimeRenderOption,
                               v: ValueRenderOption)
    ensures DecodeBatchGetQuery(BatchGetQuery(rendered, d, t, v)) == Some((rendered, d, t, v))
  {
    var q := BatchGetQuery(rendered, d, t, v);
    var n := |rendered|;
    assert |q| - 4 == n;
    assert forall i :: 0 <= i < n ==> q[i] == ("ranges", rendered[i]);
    assert q[n] == ("majorDimension", d.ToString());
    assert q[n + 1] == ("dateTimeRenderOption", t.ToString());
    assert q[n + 2] == ("valueRenderOption", v.ToString());
    assert q[n + 3] == ("alt", "json");
    assert seq(n, i requires 0 <= i < n => q[i].1) == rendered;
  }

  /** `batch_get`: GET `.../{id}/values:batchGet`, one `ranges` pair per range in input order
      ahead of the fixed options. */
  method BatchGetRequest(p: BatchGetParams, token: string) returns (r: HttpRequest)
    ensures r.verb == Get && r.body == NoBody
    ensures r.url.address == SheetsBase + p.spreadsheetId + "/values:batchGet"
    ensures DecodeBatchGetQuery(r.url.query) ==
            Some((seq(|p.ranges|, i requires 0 <= i < |p.ranges| => RangeToString(p.ranges[i])),
                  p.majorDimension.UnwrapOr(DefaultDimension),
                  p.dateTimeRenderOption.UnwrapOr(DefaultDateTimeRenderOption),
                  p.valueRenderOption.UnwrapOr(DefaultValueRenderOption)))
    ensures Metadata.BearerToken(r.authorization) == Some(token)
  {
    var query: Query := [];
    for k := 0 to |p.ranges|
      invariant |query| == k
      invariant forall i :: 0 <= i < k ==> query[i] == ("ranges", RangeToString(p.ranges[i]))
    {
      query := query + [("ranges", RangeToString(p.ranges[k]))];
    }
    var d := p.majorDimension.UnwrapOr(DefaultDimension);
    var t := p.dateTimeRenderOption.UnwrapOr(DefaultDateTimeRenderOption);
    var v := p.valueRenderOption.UnwrapOr(DefaultValueRenderOption);
    var rendered := seq(|p.ranges|, i requires 0 <= i < |p.ranges| => RangeToString(p.ranges[i]));
    var all := query + [("majorDimension", d.ToString()), ("dateTimeRenderOption", t.ToString()),
                        ("valueRenderOption", v.ToString()), ("alt", "json")];
    assert all == BatchGetQuery(rendered, d, t, v);
    BatchGetQueryRoundTrip(rendered, d, t, v);
    r := HttpRequest(Get, Url(SheetsBase + p.spreadsheetId + "/values:batchGet", all),
                     NoBody, Metadata.Bearer(token));
  }

  /** `get_spreadsheet_info`: GET `.../{id}` with no query. */
  function SpreadsheetInfoRequest(spreadsheetId: string, token: string): (r: HttpRequest)
    ensures r.verb == Get && r.body == NoBody && r.url.query == []
    ensures |r.url.address| >= |SheetsBase| && r.url.address[..|SheetsBase|] == SheetsBase && r.url.address[|SheetsBase|..] == spreadsheetId
    ensures Metadata.BearerToken(r.authorization) == Some(token)
  {
    HttpRequest(Get, Url(SheetsBase + spreadsheetId, []), NoBody, Metadata.Bearer(token))
  }

  /** `batch_update`: POST `.../{id}/values:batchUpdate` with the parameters themselves as
      the body and no query. */
  function BatchUpdateRequest(p: BatchUpdateParams, token: string): (r: HttpRequest)
    ensures r.verb == Post && r.body == BatchUpdate(p) && r.url.query == []
    ensures r.url.address == SheetsBase + p.spreadsheetId + "/values:batchUpdate"
    ensures Metadata.BearerToken(r.authorization) == Some(token)
  {
    HttpRequest(Post, Url(SheetsBase + p.spreadsheetId + "/values:batchUpdate", []),
                BatchUpdate(p), Metadata.Bearer(token))
  }

  // ---------------------------------------------------------------------------------------
  // Replies

  /** A reply: the status code, its canonical reason phrase and the body text. */
  datatype HttpResponse = HttpResponse(status: nat, reason: string, text: string)

  predicate IsSuccess(status: nat) {
    200 <= status <= 299
  }

  /** The message for a reply whose status is not a success; `StatusCode`'s `Display` is the
      code followed by its reason phrase. */
  function UnexpectedStatus(resp: HttpResponse): string {
    "Unexpected result with status code " + IntToString(resp.status) + " " + resp.reason + ": " + resp.text
  }

  /** What every call does with the outcome of `send`: a transport error is passed on as its
      message, a non-2xx status becomes `UnexpectedStatus`, and otherwise the body is decoded
      (`decode` stands for `Response::json`). */
  function HandleResponse<T>(sent: Result<HttpResponse, string>, decode: string -> Result<T, string>)
    : (r: Result<T, string>)
    ensures r.Ok? <==> sent.Ok? && IsSuccess(sent.value.status) && decode(sent.value.text).Ok?
    ensures r.Ok? ==> r == decode(sent.value.text)
    ensures sent.Err? ==> r == Err(sent.error)
    ensures sent.Ok? && !IsSuccess(sent.value.status) ==> r == Err(UnexpectedStatus(sent.value))
  {
    match sent
    case Err(e) => Err(e)
    case Ok(resp) =>
      if !IsSuccess(resp.status) then Err(UnexpectedStatus(resp))
      else decode(resp.text)
  }

  /** The code can be read back from an unexpected-status message: it is the word between the
      fixed prefix and the next space. */
  lemma UnexpectedStatusCarriesCode(resp: HttpResponse)
    ensures var prefix := "Unexpected result with status code ";
            var m := UnexpectedStatus(resp);
            m[..|prefix|] == prefix && ParseInt(Split(m[|prefix|..], ' ')[0]) == resp.status
    ensures var prefix := "Unexpected result with status code ";
            var m := UnexpectedStatus(resp);
            var digits := IntToString(resp.status);
            ParseInt(m[|prefix|..|prefix| + |digits|]) == resp.status
  {
    var prefix := "Unexpected result with status code ";
    var digits := IntToString(resp.status);
    var m := UnexpectedStatus(resp);
    var tail := resp.reason + ": " + resp.text;
    assert m == prefix + digits + [' '] + tail;
    assert m[|prefix|..] == digits + [' '] + tail;
    assert m[|prefix|..|prefix| + |digits|] == digits;
    IntToStringHasNoSpace(resp.status);
    SplitPrefix(digits, tail, ' ');
    ParseIntToString(resp.status);
  }
}

=== FILE: StreamingStt.dfy ===
/** Yandex SpeechKit streaming recognition: the request stream is one configuration message
    followed by every audio frame the caller pushed, in order; the responses of the service
    are relayed to the caller in the order they arrive.

    The spawned task and the channels are not modelled: the audio the caller sends before
    closing its sender is a sequence, and so are the service's replies. */
module StreamingStt {
  import opened Wrappers
  import Metadata

  const DefaultHost: string := "https://stt.api.cloud.yandex.net"

  datatype AudioEncoding = AudioEncodingUnspecified | Linear16Pcm | OggOpus

  datatype RecognitionSpec = RecognitionSpec(
    audioEncoding: AudioEncoding,
    sampleRateHertz: int,
    languageCode: string,
    profanityFilter: bool,
    model: string,
    partialResults: bool,
    singleUtterance: bool,
    audioChannelCount: int,
    rawResults: bool)

  datatype RecognitionConfig = RecognitionConfig(specification: Option<RecognitionSpec>, folderId: string)

  type Frame = seq<bv8>

  /** `StreamingRecognitionRequest`; `streaming_request` is always set, so the `None` case of
      the protobuf oneof is not represented. */
  datatype Request = Config(config: RecognitionConfig) | AudioContent(audio: Frame)

  /** The service's `StreamingRecognitionResponse`, as received; the bridge does not look
      inside it. */
  datatype Response = Response(encoded: seq<bv8>)

  /** `default_config`: 16-bit PCM at 8 kHz, Russian, the "general:rc" model, partial and raw
      results, one channel, no profanity filter, not single-utterance. */
  function DefaultConfig(folderId: string): (c: RecognitionConfig)
    ensures c.folderId == folderId
    ensures c.specification.Some?
    ensures var s := c.specification.value;
            s.audioEncoding == Linear16Pcm && s.sampleRateHertz == 8000 &&
            s.languageCode == "ru-RU" && s.model == "general:rc" &&
            s.partialResults && !s.singleUtterance && s.audioChannelCount == 1 &&
            s.rawResults && !s.profanityFilter
  {
    RecognitionConfig(
      Some(RecognitionSpec(
        audioEncoding := Linear16Pcm,
        sampleRateHertz := 8000,
        languageCode := "ru-RU",
        profanityFilter := false,
        model := "general:rc",
        partialResults := true,
        singleUtterance := false,
        audioChannelCount := 1,
        rawResults := true)),
      folderId)
  }

  /** `config.unwrap_or_else(|| default_config(folder_id))`. */
  function ResolveConfig(config: Option<RecognitionConfig>, folderId: string): (c: RecognitionConfig)
    ensures config.Some? ==> c == config.value
    ensures config.None? ==> c == DefaultConfig(folderId)
  {
    config.UnwrapOr(DefaultConfig(folderId))
  }

  /** The request stream the `stream!` block yields for the given frames. */
  function Requests(config: RecognitionConfig, frames: seq<Frame>): seq<Request> {
    [Config(config)] + seq(|frames|, i requires 0 <= i < |frames| => AudioContent(frames[i]))
  }

  /** Splits a request stream back into its configuration and audio, if it has the shape
      "one Config, then only AudioContent". */
  function ParseRequests(rs: seq<Request>): Option<(RecognitionConfig, seq<Frame>)> {
    if |rs| == 0 || !rs[0].Config? then None
    else
      match AudioOf(rs[1..])
      case None => None
      case Some(frames) => Some((rs[0].config, frames))
  }

  function AudioOf(rs: seq<Request>): Option<seq<Frame>> {
    if |rs| == 0 then Some([])
    else if !rs[0].AudioContent? then None
    else
      match AudioOf(rs[1..])
      case None => None
      case Some(rest) => Some([rs[0].audio] + rest)
  }

  lemma {:induction false} AudioOfContents(frames: seq<Frame>)
    ensures AudioOf(seq(|frames|, i requires 0 <= i < |frames| => AudioContent(frames[i]))) == Some(frames)
  {
    var rs := seq(|frames|, i requires 0 <= i < |frames| => AudioContent(frames[i]));
    if |frames| > 0 {
      AudioOfContents(frames[1..]);
      assert rs[1..] == seq(|frames[1..]|, i requires 0 <= i < |frames[1..]| => AudioContent(frames[1..][i]));
      assert frames == [frames[0]] + frames[1..];
    }
  }

  /** The request stream decodes back to exactly the configuration and the frames: one
      Config, first, never repeated, then every frame byte for byte in order; n frames make
      n + 1 requests. */
  lemma RequestsRoundTrip(config: RecognitionConfig, frames: seq<Frame>)
    ensures ParseRequests(Requests(config, frames)) == Some((config, frames))
    ensures |Requests(config, frames)| == |frames| + 1
  {
    var rs := Requests(config, frames);
    assert rs[1..] == seq(|frames|, i requires 0 <= i < |frames| => AudioContent(frames[i]));
    AudioOfContents(frames);
  }

  /** Exactly one request is a Config, and it is the first one. */
  lemma {:induction false} OneConfigFirst(config: RecognitionConfig, frames: seq<Frame>)
    ensures Requests(config, frames)[0] == Config(config)
    ensures forall i :: 0 < i < |Requests(config, frames)| ==> Requests(config, frames)[i].AudioContent?
  {
  }

  /** The generator as a loop: the Config message, then one AudioContent per frame received
      from the audio channel, until the sender is closed. */
  method StreamRequests(config: RecognitionConfig, received: seq<Frame>) returns (sent: seq<Request>)
    ensures ParseRequests(sent) == Some((config, received))
    ensures sent == Requests(config, received)
  {
    sent := [Config(config)];
    var i := 0;
    while i < |received|
      invariant 0 <= i <= |received|
      invariant sent == Requests(config, received[..i])
    {
      sent := sent + [AudioContent(received[i])];
      i := i + 1;
      assert Requests(config, received[..i])[1..] ==
             Requests(config, received[..i - 1])[1..] + [AudioContent(received[i - 1])];
    }
    assert received[..i] == received;
    RequestsRoundTrip(config, received);
  }

  /** One read of the response stream: a message or an error. The end of the stream is the
      end of the sequence; a failed handshake (`streaming_recognize(..).await.unwrap()`) is
      an `Error` first, which likewise closes the caller's receiver with nothing delivered. */
  datatype Incoming = Message(response: Response) | Error(status: string)

  /** How the relay task ends: the stream finished, or an `unwrap` panicked on an error. */
  datatype RelayEnd = Finished | Panicked(status: string)

  datatype Relayed = Relayed(delivered: seq<Response>, end: RelayEnd)

  /** The receive loop: forwards each message unchanged, in arrival order, and stops at the
      first error (the task panics, so the caller's receiver is closed). */
  method Relay(incoming: seq<Incoming>) returns (r: Relayed)
    ensures |r.delivered| <= |incoming|
    ensures forall i :: 0 <= i < |r.delivered| ==> incoming[i] == Message(r.delivered[i])
    ensures r.end.Finished? <==> (|r.delivered| == |incoming|)
    ensures r.end.Panicked? ==> incoming[|r.delivered|] == Error(r.end.status)
  {
    var delivered: seq<Response> := [];
    var i := 0;
    while i < |incoming|
      invariant 0 <= i <= |incoming|
      invariant |delivered| == i
      invariant forall j :: 0 <= j < i ==> incoming[j] == Message(delivered[j])
    {
      match incoming[i]
      case Error(status) =>
        return Relayed(delivered, Panicked(status));
      case Message(m) =>
        delivered := delivered + [m];
      i := i + 1;
    }
    r := Relayed(delivered, Finished);
  }

  /** What one `streaming_recognize` session puts on the wire and hands back: the
      `authorization` metadata, the requests sent and the responses delivered. */
  datatype Session = Session(authorization: string, requests: seq<Request>, results: Relayed)

  method StreamingRecognize(config: Option<RecognitionConfig>, folderId: string, token: string,
                            frames: seq<Frame>, incoming: seq<Incoming>) returns (s: Session)
    ensures Metadata.BearerToken(s.authorization) == Some(token)
    ensures ParseRequests(s.requests) == Some((ResolveConfig(config, folderId), frames))
    ensures |s.results.delivered| <= |incoming|
    ensures forall i :: 0 <= i < |s.results.delivered| ==> incoming[i] == Message(s.results.delivered[i])
    ensures s.results.end.Finished? <==> |s.results.delivered| == |incoming|
    ensures s.results.end.Panicked? ==> incoming[|s.results.delivered|] == Error(s.results.end.status)
  {
    var c := ResolveConfig(config, folderId);
    var sent := StreamRequests(c, frames);
    var relayed := Relay(incoming);
    s := Session(Metadata.Bearer(token), sent, relayed);
  }
}

=== FILE: Text.dfy ===
/** String helpers the crate takes from Rust's standard library: `to_ascii_uppercase`,
    `split`, `join`, `replace`, left-aligned padding and decimal formatting of integers.
    Strings are `seq<char>`; only ASCII letters are case-mapped, as in Rust. */
module Text {

  predicate IsAsciiLower(c: char) {
    'a' <= c <= 'z'
  }

  /** `char::to_ascii_uppercase`: maps 'a'..'z' to 'A'..'Z', every other char to itself. */
  function UpperChar(c: char): (u: char)
    ensures !IsAsciiLower(u)
    ensures !IsAsciiLower(c) ==> u == c
  {
    if IsAsciiLower(c) then (c as int - 32) as char else c
  }

  /** True when `s` has no ASCII lower-case letter. */
  predicate IsAsciiUpper(s: string) {
    forall i :: 0 <= i < |s| ==> !IsAsciiLower(s[i])
  }

  /** `str::to_ascii_uppercase`. */
  function AsciiUpper(s: string): (r: string)
    ensures |r| == |s|
    ensures forall i :: 0 <= i < |s| ==> r[i] == UpperChar(s[i])
  {
    seq(|s|, i requires 0 <= i < |s| => UpperChar(s[i]))
  }

  /** The result has no lower-case letter, an upper-case string is a fixed point, and so
      upper-casing twice is upper-casing once. */
  lemma AsciiUpperNormalises(s: string)
    ensures IsAsciiUpper(AsciiUpper(s))
    ensures IsAsciiUpper(s) ==> AsciiUpper(s) == s
    ensures AsciiUpper(AsciiUpper(s)) == AsciiUpper(s)
  {
  }

  /** `str::split(c)`: always at least one part (the empty string splits into `[""]`),
      and no part contains the separator. */
  function Split(s: string, c: char): (parts: seq<string>)
    ensures |parts| >= 1
    ensures forall i :: 0 <= i < |parts| ==> c !in parts[i]
  {
    if |s| == 0 then [""]
    else if s[0] == c then [""] + Split(s[1..], c)
    else
      var rest := Split(s[1..], c);
      [[s[0]] + rest[0]] + rest[1..]
  }

  /** `[String]::join(sep)`. */
  function Join(parts: seq<string>, sep: string): string {
    if |parts| == 0 then ""
    else if |parts| == 1 then parts[0]
    else parts[0] + sep + Join(parts[1..], sep)
  }

  /** Joining the parts of a split with the separator gives back the original string. */
  lemma {:induction false} JoinSplit(s: string, c: char)
    ensures Join(Split(s, c), [c]) == s
  {
    if |s| == 0 {
    } else if s[0] == c {
      var rest := Split(s[1..], c);
      JoinSplit(s[1..], c);
      assert Split(s, c) == [""] + rest;
      assert Join(Split(s, c), [c]) == "" + [c] + Join(rest, [c]);
      assert s == [c] + s[1..];
    } else {
      var rest := Split(s[1..], c);
      JoinSplit(s[1..], c);
      var parts := [[s[0]] + rest[0]] + rest[1..];
      assert Split(s, c) == parts;
      if |rest| == 1 {
        assert Join(parts, [c]) == [s[0]] + rest[0];
        assert Join(rest, [c]) == rest[0];
      } else {
        assert parts[1..] == rest[1..];
        assert Join(parts, [c]) == [s[0]] + rest[0] + [c] + Join(rest[1..], [c]);
        assert Join(rest, [c]) == rest[0] + [c] + Join(rest[1..], [c]);
      }
      assert s == [s[0]] + s[1..];
    }
  }

  /** Joining parts that do not contain the separator, then splitting, gives back the parts. */
  lemma {:induction false} SplitJoin(parts: seq<string>, c: char)
    requires |parts| >= 1
    requires forall i :: 0 <= i < |parts| ==> c !in parts[i]
    ensures Split(Join(parts, [c]), c) == parts
    decreases parts
  {
    if |parts| == 1 {
      SplitNoSeparator(parts[0], c);
    } else {
      SplitJoin(parts[1..], c);
      SplitPrefix(parts[0], Join(parts[1..], [c]), c);
      assert Join(parts, [c]) == parts[0] + [c] + Join(parts[1..], [c]);
      assert parts == [parts[0]] + parts[1..];
    }
  }

  lemma {:induction false} SplitNoSeparator(s: string, c: char)
    requires c !in s
    ensures Split(s, c) == [s]
  {
    if |s| > 0 {
      assert c !in s[1..] by {
        forall i | 0 <= i < |s[1..]| ensures s[1..][i] != c {
          assert s[1..][i] == s[i + 1];
        }
      }
      SplitNoSeparator(s[1..], c);
      assert s == [s[0]] + s[1..];
    }
  }

  lemma {:induction false} SplitPrefix(a: string, b: string, c: char)
    requires c !in a
    ensures Split(a + [c] + b, c) == [a] + Split(b, c)
  {
    if |a| == 0 {
      assert a + [c] + b == [c] + b;
      assert ([c] + b)[1..] == b;
    } else {
      assert c !in a[1..] by {
        forall i | 0 <= i < |a[1..]| ensures a[1..][i] != c {
          assert a[1..][i] == a[i + 1];
        }
      }
      SplitPrefix(a[1..], b, c);
      assert (a + [c] + b)[1..] == a[1..] + [c] + b;
      assert (a + [c] + b)[0] == a[0];
      assert a == [a[0]] + a[1..];
    }
  }

  /** `str::replace` of one character by a string. */
  function ReplaceChar(s: string, c: char, rep: string): string {
    if |s| == 0 then ""
    else (if s[0] == c then rep else [s[0]]) + ReplaceChar(s[1..], c, rep)
  }

  /** Every occurrence of `c` in `t` is the start of a copy of `rep`. */
  predicate OccurrencesStart(t: string, c: char, rep: string) {
    forall i :: 0 <= i < |t| && t[i] == c ==> i + |rep| <= |t| && t[i..i + |rep|] == rep
  }

  /** After `ReplaceChar`, every occurrence of `c` is the start of a copy of `rep`, provided
      `rep` holds `c` only at its start: no occurrence escapes the replacement. */
  lemma {:induction false} ReplacedOccurrencesStartRep(s: string, c: char, rep: string)
    requires |rep| > 0 && rep[0] == c && c !in rep[1..]
    ensures OccurrencesStart(ReplaceChar(s, c, rep), c, rep)
  {
    if |s| > 0 {
      var h := if s[0] == c then rep else [s[0]];
      var t := ReplaceChar(s[1..], c, rep);
      var r := h + t;
      assert r == ReplaceChar(s, c, rep);
      ReplacedOccurrencesStartRep(s[1..], c, rep);
      assert OccurrencesStart(t, c, rep);
      forall i | 0 <= i < |r| && r[i] == c
        ensures i + |rep| <= |r| && r[i..i + |rep|] == rep
      {
        if i < |h| {
          if s[0] == c {
            assert i == 0;
            assert r[..|rep|] == rep;
          }
        } else {
          var j := i - |h|;
          assert t[j] == r[i];
          assert j + |rep| <= |t| && t[j..j + |rep|] == rep;
          assert r[|h|..] == t;
          assert r[i..i + |rep|] == r[|h|..][j..j + |rep|];
        }
      }
    }
  }

  /** The inverse of `ReplaceChar` when the replacement starts with the replaced character:
      every occurrence of `rep` read left to right turns back into `c`. */
  function UnreplaceChar(t: string, c: char, rep: string): string
    requires |rep| > 0
    decreases |t|
  {
    if |t| == 0 then ""
    else if |rep| <= |t| && t[..|rep|] == rep then [c] + UnreplaceChar(t[|rep|..], c, rep)
    else [t[0]] + UnreplaceChar(t[1..], c, rep)
  }

  lemma {:induction false} UnreplaceReplace(s: string, c: char, rep: string)
    requires |rep| > 0 && rep[0] == c
    ensures UnreplaceChar(ReplaceChar(s, c, rep), c, rep) == s
  {
    if |s| > 0 {
      var tail := ReplaceChar(s[1..], c, rep);
      UnreplaceReplace(s[1..], c, rep);
      if s[0] == c {
        var t := rep + tail;
        assert t[..|rep|] == rep;
        assert t[|rep|..] == tail;
      } else {
        var t := [s[0]] + tail;
        assert t[0] != rep[0];
        assert t[1..] == tail;
      }
      assert s == [s[0]] + s[1..];
    }
  }

  /** A string of `n` spaces. */
  function Spaces(n: nat): (r: string)
    ensures |r| == n
    ensures forall i :: 0 <= i < n ==> r[i] == ' '
  {
    if n == 0 then "" else [' '] + Spaces(n - 1)
  }

  /** `format!("{:<width}", s)`: left-aligned, padded with spaces on the right up to
      `width` characters; a longer string is kept whole. */
  function PadRight(s: string, width: nat): (r: string)
    ensures |r| == if |s| < width then width else |s|
    ensures r[..|s|] == s
    ensures forall i :: |s| <= i < |r| ==> r[i] == ' '
  {
    if |s| < width then s + Spaces(width - |s|) else s
  }

  function Digit(d: nat): char
    requires d < 10
  {
    "0123456789"[d]
  }

  function DigitValue(c: char): nat {
    if '0' <= c <= '9' then c as int - '0' as int else 0
  }

  predicate IsDigit(c: char) {
    '0' <= c <= '9'
  }

  /** Decimal digits of a natural number, without leading zeros. */
  function NatToString(n: nat): (r: string)
    ensures |r| >= 1
    ensures forall i :: 0 <= i < |r| ==> IsDigit(r[i])
    ensures |r| > 1 ==> r[0] != '0'
  {
    if n < 10 then [Digit(n)] else NatToString(n / 10) + [Digit(n % 10)]
  }

  /** Reads a string of decimal digits, most significant first. */
  function ParseNat(s: string): nat {
    if |s| == 0 then 0 else ParseNat(s[..|s| - 1]) * 10 + DigitValue(s[|s| - 1])
  }

  lemma {:induction false} ParseNatToString(n: nat)
    ensures ParseNat(NatToString(n)) == n
  {
    if n >= 10 {
      var p := NatToString(n / 10);
      var s := p + [Digit(n % 10)];
      assert s[..|s| - 1] == p;
      ParseNatToString(n / 10);
    }
  }

  /** `i64` `Display`: a leading '-' for negative numbers, then the digits. */
  function IntToString(n: int): string {
    if n < 0 then "-" + NatToString(-n) else NatToString(n)
  }

  function ParseInt(s: string): int {
    if |s| > 0 && s[0] == '-' then -(ParseNat(s[1..]) as int) else ParseNat(s)
  }

  lemma ParseIntToString(n: int)
    ensures ParseInt(IntToString(n)) == n
  {
    if n < 0 {
      assert ("-" + NatToString(-n))[1..] == NatToString(-n);
      ParseNatToString(-n);
    } else {
      ParseNatToString(n);
    }
  }

  /** A printed integer is one word: it has no space in it. */
  lemma IntToStringHasNoSpace(n: int)
    ensures ' ' !in IntToString(n)
  {
  }

  /** `bool` `Display`. */
  function BoolToString(b: bool): string {
    if b then "true" else "false"
  }
}

=== FILE: Wrappers.dfy ===
/** Rust's `Option` and `Result`, as used across the crate. */
module Wrappers {

  /** `Option<T>`; `UnwrapOr` is `unwrap_or_default` / `unwrap_or_else` with the default spelled out. */
  datatype Option<+T> = None | Some(value: T) {

    function UnwrapOr(default: T): (r: T)
      ensures Some? ==> r == value
      ensures None? ==> r == default
    {
      match this
      case Some(v) => v
      case None => default
    }
  }

  /** `Result<T, E>`: `Ok` for success, `Err` for an error value or a panic of the source. */
  datatype Result<+T, +E> = Ok(value: T) | Err(error: E)
}

=== FILE: YandexAuth.dfy ===
/** The Yandex Cloud IAM token cache: a signed JWT assertion is exchanged for an IAM token,
    which is cached together with its expiry and served until it expires.

    The clock is the parameter `now` (seconds since the Unix epoch) and the token exchange
    endpoint is the oracle `exchange`, which maps the POSTed request to the endpoint's reply.
    Signing is not modelled: a `Jwt` records what was signed and with which key. */
module YandexAuth {
  import opened Wrappers

  /** Service account id, put in the `iss` claim. */
  const Issuer: string := "ajede2r7i8dtgcgehtdl"
  /** The token exchange endpoint; it is both the `aud` claim and the POST target. */
  const TokenUrl: string := "https://iam.api.cloud.yandex.net/iam/v1/tokens"
  /** Id of the service account key, put in the JWT header's `kid`. */
  const KeyId: string := "aje04ppj0e85d7njj0sf"
  /** Lifetime requested for an assertion, in seconds. */
  const AssertionLifetime: nat := 3600

  datatype Algorithm = HS256 | RS256 | PS256 | ES256

  datatype JwtHeader = JwtHeader(alg: Algorithm, kid: Option<string>)

  datatype Claims = Claims(iss: string, aud: string, iat: nat, exp: nat)

  /** An RSA private key parsed from PEM (its contents are not interpreted). */
  datatype EncodingKey = EncodingKey(pem: seq<bv8>)

  /** A JWT: the header and claims it signs and the key it is signed with. */
  datatype Jwt = Jwt(header: JwtHeader, claims: Claims, key: EncodingKey)

  /** A POST of `{"jwt": ...}` to `url`. */
  datatype TokenRequest = TokenRequest(url: string, jwt: Jwt)

  /** The endpoint's reply: `iamToken` and its absolute expiry `expiresAt` (seconds). */
  datatype TokenResult = TokenResult(iamToken: string, expiresAt: int)

  /** The two process-wide cells: the signing key and the cached token. */
  datatype AuthState = AuthState(key: Option<EncodingKey>, cached: Option<TokenResult>)

  /** The panics of the source: a key that is not PEM, a second key, a fetch with no key. */
  datatype AuthError = InvalidKey | KeyAlreadySet | KeyNotSet

  /** One call of `get_auth_token`: the returned token, the state afterwards and the
      requests sent to the exchange endpoint during the call. */
  datatype Call = Call(token: string, state: AuthState, requests: seq<TokenRequest>)

  const Uninitialised: AuthState := AuthState(None, None)

  /** The claim set of an assertion issued at `now`. */
  function AssertionClaims(now: nat): (c: Claims)
    ensures c.exp == c.iat + AssertionLifetime
    ensures c.iat == now
    ensures c.iss == Issuer && c.aud == TokenUrl
  {
    Claims(Issuer, TokenUrl, now, now + 3600)
  }

  /** The JWT header: PS256 with the fixed key id. */
  function AssertionHeader(): (h: JwtHeader)
    ensures h.alg == PS256
    ensures h.kid == Some(KeyId)
  {
    JwtHeader(PS256, Some(KeyId))
  }

  /** The request `get_iam_token` sends at time `now` with signing key `key`. */
  function IamTokenRequest(now: nat, key: EncodingKey): (r: TokenRequest)
    ensures r.url == r.jwt.claims.aud
    ensures r.jwt.header == AssertionHeader()
    ensures r.jwt.claims == AssertionClaims(now)
    ensures r.jwt.key == key
  {
    TokenRequest(TokenUrl, Jwt(AssertionHeader(), AssertionClaims(now), key))
  }

  /** A cached token is served while `expires_at - now` is strictly positive. */
  predicate Valid(t: TokenResult, now: int) {
    t.expiresAt - now > 0
  }

  /** Fetches a fresh token and stores it, replacing whatever was cached. */
  function Refresh(st: AuthState, now: nat, exchange: TokenRequest -> TokenResult): Result<Call, AuthError> {
    match st.key
    case None => Err(KeyNotSet)
    case Some(key) =>
      var request := IamTokenRequest(now, key);
      var result := exchange(request);
      Ok(Call(result.iamToken, st.(cached := Some(result)), [request]))
  }

  /** `get_auth_token`. */
  function GetAuthToken(st: AuthState, now: nat, exchange: TokenRequest -> TokenResult): (r: Result<Call, AuthError>)
    // a valid cached token is returned with no exchange and no change to the cache
    ensures st.cached.Some? && Valid(st.cached.value, now) ==>
              r == Ok(Call(st.cached.value.iamToken, st, []))
    // otherwise (empty, or expires_at <= now) exactly one exchange happens and its reply is cached
    ensures (st.cached.None? || !Valid(st.cached.value, now)) ==>
              (r.Err? <==> st.key.None?) &&
              (r.Ok? ==> r.value.requests == [IamTokenRequest(now, st.key.value)] &&
                         r.value.state.cached == Some(exchange(r.value.requests[0])))
    // whatever happened, the returned token is the cached one and the key is untouched
    ensures r.Ok? ==> r.value.state.cached.Some? && r.value.state.cached.value.iamToken == r.value.token
    ensures r.Ok? ==> r.value.state.key == st.key && |r.value.requests| <= 1
    ensures r.Err? ==> r.error == KeyNotSet
  {
    match st.cached
    case Some(t) => if Valid(t, now) then Ok(Call(t.iamToken, st, [])) else Refresh(st, now, exchange)
    case None => Refresh(st, now, exchange)
  }

  /** `initialize_auth`: parses the key (`parsed` is `None` when it is not valid PEM), stores it
      once, then warms the cache with one `get_auth_token`. */
  function InitializeAuth(st: AuthState, parsed: Option<EncodingKey>, now: nat,
                          exchange: TokenRequest -> TokenResult): (r: Result<AuthState, AuthError>)
    ensures parsed.None? ==> r == Err(InvalidKey)
    ensures parsed.Some? && st.key.Some? ==> r == Err(KeyAlreadySet)
    ensures parsed.Some? && st.key.None? ==> r.Ok?
    ensures r.Ok? ==> r.value.key == parsed && r.value.cached.Some?
  {
    match parsed
    case None => Err(InvalidKey)
    case Some(key) =>
      if st.key.Some? then Err(KeyAlreadySet)
      else
        match GetAuthToken(st.(key := Some(key)), now, exchange)
        case Ok(call) => Ok(call.state)
        case Err(e) => Err(e)
  }

  /** A sequence of `get_auth_token` calls at the given instants: the tokens returned, the
      final state and every exchange request, in order. */
  function RunCalls(st: AuthState, times: seq<nat>, exchange: TokenRequest -> TokenResult)
    : Result<Call, AuthError>
    decreases |times|
  {
    if |times| == 0 then Ok(Call("", st, []))
    else
      match GetAuthToken(st, times[0], exchange)
      case Err(e) => Err(e)
      case Ok(first) =>
        match RunCalls(first.state, times[1..], exchange)
        case Err(e) => Err(e)
        case Ok(rest) => Ok(Call(if |times| == 1 then first.token else rest.token, rest.state,
                                 first.requests + rest.requests))
  }

  /** While the cached token stays valid, any number of calls perform no exchange, all
      return the cached token and leave the state as it was. */
  lemma {:induction false} NoExchangeWhileValid(st: AuthState, times: seq<nat>,
                                                exchange: TokenRequest -> TokenResult)
    requires st.cached.Some?
    requires forall i :: 0 <= i < |times| ==> Valid(st.cached.value, times[i])
    ensures RunCalls(st, times, exchange).Ok?
    ensures RunCalls(st, times, exchange).value.requests == []
    ensures RunCalls(st, times, exchange).value.state == st
    ensures |times| > 0 ==> RunCalls(st, times, exchange).value.token == st.cached.value.iamToken
  {
    if |times| > 0 {
      assert Valid(st.cached.value, times[0]);
      NoExchangeWhileValid(st, times[1..], exchange);
    }
  }

  /** Two requests a second apart on an empty cache whose first reply expires an hour later
      cause exactly one exchange, and both return the same token. */
  lemma {:induction false} TwoCallsOneExchange(key: EncodingKey, now: nat, exchange: TokenRequest -> TokenResult)
    requires exchange(IamTokenRequest(now, key)).expiresAt == now + 3600
    ensures var r := RunCalls(AuthState(Some(key), None), [now, now + 1], exchange);
            r.Ok? && |r.value.requests| == 1 &&
            r.value.token == exchange(IamTokenRequest(now, key)).iamToken
  {
    var st := AuthState(Some(key), None);
    var first := GetAuthToken(st, now, exchange);
    assert first.Ok?;
    NoExchangeWhileValid(first.value.state, [now + 1], exchange);
    assert [now, now + 1][1..] == [now + 1];
  }

  /** An expired token is always replaced before a token is returned; if the endpoint
      issues tokens that outlive the request, the new cached token is valid at `now`. */
  lemma ExpiredIsRefetched(st: AuthState, now: nat, exchange: TokenRequest -> TokenResult)
    requires st.key.Some? && st.cached.Some? && st.cached.value.expiresAt <= now
    requires forall req :: exchange(req).expiresAt > now
    ensures GetAuthToken(st, now, exchange).Ok?
    ensures |GetAuthToken(st, now, exchange).value.requests| == 1
    ensures Valid(GetAuthToken(st, now, exchange).value.state.cached.value, now)
  {
  }
}
